=== FILE: README.md ===
# rust-paillier in Dafny

This project models rust-paillier, a small library with two
partially homomorphic public-key cryptosystems. It also models the
randomized prime generation that both of them share:

- `Rng` (src/rng.rs) covers three operations:
  - `generate_urandom` draws an integer of an exact bit length.
  - `generate_prime` returns the next prime after such a draw.
  - `generate_strong_prime` is meant to return a prime p where p - 1
    has a large prime factor. As written, its search keeps that factor
    only by accident: after k steps pp divides p - 1 only when pp divides
    a·k (see Findings). The model has an as-written and a corrected
    version.
- `GoldwasserMicali` (src/gm.rs) covers key generation, bit encryption,
  bit decryption and ciphertext XOR.
- `Paillier` (src/paillier.rs) covers key generation, encryption,
  decryption and the three homomorphic operations: `add_cipher`,
  `add_const` and `mul_const`.

The arithmetic the code gets from GMP is written out in Dafny. The
supporting modules are:

- `Arith`: powers, `powm`, and truncating `/` and `%`. Rust's `Mpz`
  operators round toward zero, while Dafny's are Euclidean.
- `Bits`: `bit_length` and `setbit`.
- `Primes`: primality, gcd, extended Euclid and `invert`.
- `Residues`: the Legendre symbol.
- `Fermat`: the number theory that the correctness proofs rest on. This
  runs from the binomial theorem, through Fermat's little theorem, to the
  fact that a^(n·λ) ≡ 1 (mod n²) for every a prime to n = p·q.

Four modelling choices apply throughout:

- Randomness is a value. A `RandState` is an infinite stream of raw draws
  plus a count of how many are used up, and each GMP sampling call takes
  one draw.
- `mpz_nextprime` and `mpz_probab_prime_p` are the two fields of an
  `Oracle`. Results that need them to behave carry that as a premise:
  `NextPrimeSound` (the result is a larger prime) or `PrimalitySound` (the
  test accepts only primes).
- The source's unbounded retry loops are bounded by `tries` and `walk`.
  Running out gives the `Exhausted` outcome.
- A Rust panic (a failed `assert!`, a `usize` underflow, or an `unwrap`
  on `None`) gives the `Panicked` outcome.

Goldwasser-Micali decryption at gm.rs:68 computes the conjunction
`legendre(c,p) != 1 && legendre(c,q) != 1`, and `GoldwasserMicali.Decrypt`
models exactly that. `GoldwasserMicali.DecryptCorrect` shows it recovers
the bit of every well-formed ciphertext.

The GMP primitives `powm`, truncating `/`, `gcd` and `bit_length` are
plain definitions (`Arith.PowMod`, `Arith.TDiv`, `Primes.Gcd`,
`Bits.BitLength`). Their "## Model" rows are the lemmas that say what
each one means: `Arith.PowModBySquaringCorrect`, `Arith.TRem`,
`Primes.GcdDivides` with `Primes.GcdGreatest`, and `Bits.BitLengthIff`.
`invert` and `legendre` carry their meaning in their own contracts, so
they have rows of their own.

Key generation runs the strong-prime generator as written (step by `a`)
in `GoldwasserMicali.GenerateKey` and `Paillier.GenerateKeyAsWritten`.
`Paillier.GenerateKey` is the corrected Paillier generator and applies
both corrections from Findings: the walk steps by pp, and q is drawn
again while it equals p.

## Model

| member | source | states |
|---|---|---|
| Rng.GenerateUrandom | src/rng.rs:4-10 | A zero length panics, because `len - 1` underflows. Any other length succeeds and uses exactly one draw. The result has exactly `len` bits (2^(len-1) <= a < 2^len), so the assertion at line 8 never fires. Its low len-1 bits are those of the draw. |
| Rng.UrandomValue | src/rng.rs:6-7 | Reducing a raw draw to len-1 bits and setting bit len-1 gives a value of exactly len bits. That value agrees with the draw below bit len-1. |
| Rng.GeneratePrime | src/rng.rs:12-18 | It panics exactly when len = 0. A result has exactly `len` bits. The result is `nextprime` of the len-bit sample from the draw that ended the loop, and every draw happens after the starting state. |
| Rng.GeneratePrimeIsPrime | src/rng.rs:12-18 | If `nextprime` is sound, every result of generate_prime is a prime >= 2, and the requested length is at least 2. |
| Rng.Sample | src/rng.rs:13-17 | The shared rejection loop returns a value the acceptance test admits. That value is the candidate of the last draw it used, and it uses between 1 and `tries` draws. |
| Rng.SampleFirstAccepted | src/rng.rs:13-17 | The loop returns the FIRST acceptable candidate: every earlier draw in the window was rejected. |
| Rng.SampleExhaustedIff | src/rng.rs:13-17 | The bounded loop gives up exactly when all `tries` draws are rejected. |
| Rng.UrandomCoprime | src/paillier.rs:53-56 | The randomizer loop of both encryptions yields some r < n with gcd(r, n) = 1, drawn as the last raw draw modulo n. |
| Rng.Walk | src/rng.rs:28-37 | The inner loop returns a candidate that passed `probab_prime_p`. The candidate's index is below the walk budget, and the candidate is start + index·step. |
| Rng.WalkFirst | src/rng.rs:28-37 | The walk stops at the first probable prime among its candidates. It gives up exactly when none of the budgeted candidates passes. |
| Rng.CandidatesIncrease | src/rng.rs:36 | With a positive step, later candidates are strictly larger. |
| Rng.FirstCandidateLength | src/rng.rs:26-27 | For a positive pp, the bit lengths of pp and a guarantee that pp·a + 1 has at least `len` bits, so the assertion at line 27 never fires. |
| Rng.GenerateStrongPrimeAsWritten | src/rng.rs:20-38 | The generator as written steps by `a`. A length below 2 panics and a length of at least 4 never panics. Its result is pp·a + 1 + k·a, has exactly `len` bits, is the first candidate on its walk that passed the primality test, and certifies the construction for the step `a`. |
| Rng.StrongPrimeWith | src/rng.rs:20-38 | This covers both step rules. A length below 2 panics and a length of at least 4 never panics. A result certifies the whole construction: p has `len` bits and passed the test, and pp = nextprime of a len/2-bit sample. pp has len/2 bits, a has len - len/2 + 1 bits, and p is the first candidate on the walk from pp·a + 1 that passed the test. |
| Rng.StrongPrimeWalk | src/rng.rs:26-37 | A result certifies the construction, with p the first candidate that passed the test; it never panics once len >= 4. |
| Rng.GenerateStrongPrime | src/rng.rs:20-38 | Corrected generator (step pp). Its result is p = pp·(a + k) + 1, so pp is positive and divides p - 1. It has the same length, certification and panic guarantees as the generator as written. |
| Rng.StrongPrimeIsPrime | src/rng.rs:19-38 | With sound oracles, the strong prime and its factor pp are both prime, pp >= 2, and the length is at least 4. |
| Rng.HalfPrimePositive | src/rng.rs:23 | On the corrected walk (step pp), a certified half-size prime is positive. |
| Rng.CorrectedWalkInvariant | src/rng.rs:26-36 | Stepping by pp keeps every candidate equal to pp·(a + j) + 1. So pp divides candidate - 1 all along the walk, and the candidates increase. |
| Rng.AsWrittenWalkDivisor | src/rng.rs:36 | Stepping by a leaves (candidate_k - 1) ≡ a·k (mod pp). The divisor pp is lost as soon as pp does not divide a·k. |
| Rng.DistinctStrongPrime | src/gm.rs:38-41 | The "resample q until it differs from p" loop, over the strong-prime generator with the given step rule, yields a strong prime certified for that rule (p the first candidate on its walk that passed the test) and different from the avoided value. It never panics once len >= 4. |
| Rng.ZeroStreamStrongPrimeStart | src/rng.rs:23-26 | On an all-zero stream with nextprime(8) = 11, an 8-bit strong prime starts from pp = 11 and a = 16. |
| Rng.AsWrittenStrongPrimeLosesDivisor | src/rng.rs:36 | Counterexample: the generator as written returns 193 = 11·16 + 1 + 16. Here 11 and 193 are prime and 177 is composite, but 11 does not divide 192. |
| Rng.CorrectedStrongPrimeKeepsDivisor | src/rng.rs:36 | On the same inputs, the corrected generator returns 199 = 11·18 + 1, skipping the composite 177 and 188, and 11 divides 198. |
| GoldwasserMicali.ModulusLength | src/gm.rs:37-43 | A (keysize/2 + 1)-bit p times a (keysize/2)-bit q has at least keysize bits, so the assertion at line 43 never fires. |
| GoldwasserMicali.ChooseNonResidue | src/gm.rs:44-50 | The x loop yields x < n with Legendre symbol -1 modulo both p and q, taken from the last draw modulo n. |
| GoldwasserMicali.FinishKey | src/gm.rs:42-52 | It panics exactly when p·q is shorter than keysize. A key has n = p·q, secret key (p, q), x < n, and x a non-residue modulo p and modulo q. |
| GoldwasserMicali.GenerateKey | src/gm.rs:35-53 | Both primes come from generate_strong_prime as written (step `a`). An odd keysize panics. An even keysize >= 8 never panics. A key has n = p·q with p ≠ q, p of keysize/2 + 1 bits and q of keysize/2 bits. n has at least keysize bits, both primes passed the test, and x < n is a non-residue modulo both. With a sound primality test, the key is valid. |
| GoldwasserMicali.EncryptWith | src/gm.rs:57-64 | For a chosen y, the ciphertext is a residue below n congruent to y²·x^m. |
| GoldwasserMicali.Encrypt | src/gm.rs:55-65 | Encryption yields a residue below n equal to the encryption under some y < n that is coprime to n. |
| GoldwasserMicali.Decrypt | src/gm.rs:67-69 | The result is true exactly when c is 0 or a non-square modulo p AND 0 or a non-square modulo q. |
| GoldwasserMicali.Xor | src/gm.rs:71-73 | The result is congruent to c1·c2 modulo n, and is a residue below n when c1·c2 >= 0. |
| GoldwasserMicali.DecryptCorrect | src/gm.rs:67-69 | Under a valid key, every ciphertext of the form z²·x^b with z prime to p and q decrypts to b. |
| GoldwasserMicali.EncryptWithEncrypts | src/gm.rs:57-64 | Encrypting m with a y coprime to n produces a ciphertext of that form for bit m. |
| GoldwasserMicali.RoundTrip | src/tests.rs:28-40 | Under a valid key, decrypt(encrypt(m)) = m for both bits. |
| GoldwasserMicali.XorEncrypts | src/gm.rs:71-73 | The XOR of encryptions of b1 and b2 is an encryption of b1 XOR b2. |
| GoldwasserMicali.XorRoundTrip | src/tests.rs:43-57 | Under a valid key, decrypt(xor(encrypt(b1), encrypt(b2))) = b1 XOR b2. |
| Paillier.DeriveKey | src/paillier.rs:43-47 | The `unwrap` at line 46 succeeds exactly when n = p·q > 1 and λ mod n is coprime to n. The key then has n = p·q, n2 = n², g = n + 1 and λ = (p-1)(q-1), with μ < n and λ·μ ≡ 1 (mod n). |
| Paillier.LambdaInvertible | src/paillier.rs:45-46 | For two odd primes of the same bit length (equal or not), λ is invertible modulo p·q, so the unwrap never panics. |
| Paillier.LambdaNotDivisible | src/paillier.rs:45 | For such primes, neither p nor q divides (p-1)(q-1). |
| Paillier.CoprimeToProduct | src/paillier.rs:46 | A value divisible by neither prime is coprime to their product. |
| Paillier.GenerateKeyAsWritten | src/paillier.rs:37-50 | Both primes come from generate_strong_prime as written (step `a`). An odd keysize panics. A key is derived from two probable primes of keysize/2 bits, which need not differ. |
| Paillier.GenerateKey | src/paillier.rs:37-50 | Corrected on both counts: the strong primes walk by pp, and q is drawn again while it equals p. An odd keysize panics. A key is derived from two distinct probable primes of keysize/2 bits. |
| Paillier.GenerateKeyValid | src/paillier.rs:37-50 | With a sound primality test, every key the corrected generator returns is valid: distinct primes and the derived key. |
| Paillier.KeyExists | src/paillier.rs:40-46 | Two sound probable primes of the same length >= 4 always have a derived key. |
| Paillier.GenerateKeyNoPanic | src/paillier.rs:37-50 | With a sound primality test, the corrected generator never panics on an even keysize >= 8. |
| Paillier.GenerateKeyAsWrittenNoPanic | src/paillier.rs:37-50 | With a sound primality test, the generator as written (step `a`, no p ≠ q check) never panics on an even keysize >= 8: λ stays invertible even when p = q. |
| Paillier.EncryptWith | src/paillier.rs:58-62 | For a chosen r, the ciphertext is congruent to (1 + m·n)·r^n modulo n². It lies strictly between -n² and n², and is non-negative for m >= 0 (truncating `%`). |
| Paillier.ShortcutMatchesTextbook | src/paillier.rs:59-60 | The "faster version" 1 + m·n agrees with the commented-out g^m mod n², because the two ciphertexts are congruent modulo n². |
| Paillier.Encrypt | src/paillier.rs:52-63 | Encryption equals the encryption under some r < n with gcd(r, n) = 1. |
| Paillier.L | src/paillier.rs:67 | When n divides u - 1, truncating division is exact: L(u)·n = u - 1. It is non-negative when u >= 1, and when u >= 0 and n >= 2 (with n = 1, L(0) = -1, because the division truncates). |
| Paillier.FastL | src/tests.rs:155-161 | If n·ninv ≡ 1 (mod 2^len) and L(u) < 2^len, then (u - 1)·ninv mod 2^len equals L(u). |
| Paillier.Decrypt | src/paillier.rs:65-69 | The plaintext is a residue in [0, n). |
| Paillier.AddCipher | src/paillier.rs:71-73 | The result is congruent to c1·c2 modulo n², and is a residue when c1·c2 >= 0. |
| Paillier.AddConst | src/paillier.rs:75-77 | The result is congruent to c·g^k modulo n², and is a residue when c >= 0. |
| Paillier.MulConst | src/paillier.rs:79-81 | The result is the residue of c^k modulo n². |
| Paillier.DecryptCorrect | src/paillier.rs:65-69 | Under a valid key, every c ≡ (1 + m·n)·s^n (mod n²) with s prime to p and q decrypts to m mod n. |
| Paillier.RandomizerVanishes | src/paillier.rs:66 | (s^n)^λ ≡ 1 (mod n²) for every s prime to p and q. |
| Paillier.UnmaskPower | src/paillier.rs:66 | Raising such a ciphertext to λ leaves 1 + λ·m·n modulo n². |
| Paillier.LiftedResidue | src/paillier.rs:66-67 | (1 + v·n) mod n² = 1 + (v mod n)·n, so L recovers v mod n. |
| Paillier.Unmask | src/paillier.rs:68 | Multiplying by μ = λ⁻¹ recovers m mod n. |
| Paillier.EncryptWithEncrypts | src/paillier.rs:52-63 | Encrypting m with r coprime to n gives a ciphertext of the decryptable form. |
| Paillier.RoundTrip | src/tests.rs:79-85 | Under a valid key, decrypt(encrypt(m)) = m mod n. |
| Paillier.AddCipherEncrypts | src/paillier.rs:71-73 | The product of encryptions of m1 and m2 encrypts m1 + m2. |
| Paillier.GeneratorPowerEncrypts | src/paillier.rs:76 | g^k mod n² is an encryption of k. |
| Paillier.AddConstEncrypts | src/paillier.rs:75-77 | add_const of an encryption of m encrypts m + k. |
| Paillier.MulConstEncrypts | src/paillier.rs:79-81 | mul_const of an encryption of m encrypts m·k. |
| Paillier.HomomorphicRoundTrips | src/tests.rs:88-119 | Under a valid key, fresh encryptions decrypt homomorphically: add_cipher gives (m1 + m2) mod n, add_const gives (m1 + k) mod n, and mul_const gives (m1·k) mod n. |
| Paillier.AsWrittenKeyRepeatsPrime | src/paillier.rs:40-41 | Counterexample: at keysize 8, on an all-zero stream, both calls of generate_strong_prime as written return 13 (its walk takes no step). The key is n = 169, λ = 144, μ = 27. |
| Paillier.RepeatedPrimeKey | src/paillier.rs:43-47 | p = q = 13 still derives a key: n = 169, n2 = 28561, g = 170, λ = 144, μ = 27. |
| Paillier.RepeatedPrimeBreaksDecryption | src/paillier.rs:52-69 | Under that key, m = 0 with randomizer 2 (coprime to 169) encrypts to 20191, which decrypts to 130 instead of 0. |
| Primes.Invert | src/paillier.rs:46 | mpz_invert succeeds exactly when a mod m is coprime to m. Its result is below m and inverts a modulo m. |
| Primes.GcdDivides | src/paillier.rs:54 | gcd(a, b) divides both a and b, and it is 0 only when both are 0. |
| Primes.GcdGreatest | src/paillier.rs:54 | Every common divisor of a and b divides gcd(a, b), so gcd(r, n) = 1 means r and n share no factor. |
| Primes.ExtGcd | src/paillier.rs:46 | The Bezout coefficients combine a and b into gcd(a, b). |
| Residues.Legendre | src/gm.rs:47 | The symbol is -1, 0 or 1, and it is 0 exactly when p divides a. |
| Residues.SquareFactor | src/gm.rs:68 | Multiplying by the square of a value prime to p leaves the symbol unchanged. |
| Residues.LegendreReduce | src/gm.rs:64 | The symbol modulo p does not change when a is reduced modulo a multiple of p. |
| Fermat.CarmichaelSquare | src/paillier.rs:66 | a^(n·λ) ≡ 1 (mod n²) for a prime to both of the distinct primes p and q. |
| Arith.TRem | src/paillier.rs:62 | Rust's `%` on Mpz carries the dividend's sign and agrees with the Euclidean residue. The dividend is quotient·divisor + remainder. |
| Arith.PowModBySquaringCorrect | src/paillier.rs:58 | Square-and-multiply computes the canonical residue of b^e. |
| Arith.OnePlusMultiplePow | src/paillier.rs:59-60 | (1 + k·m)^j ≡ 1 + j·k·m (mod m²). |
| Bits.BitLengthIff | src/rng.rs:8 | A positive a has exactly len bits if and only if 2^(len-1) <= a < 2^len. |
| Bits.SetBit | src/rng.rs:7 | Setting bit i sets that bit and leaves every other bit unchanged. |

## Left out

- GMP's internals are not modelled. `mpz_nextprime` and
  `mpz_probab_prime_p` are the caller's `Oracle`, and `mpz_urandomb` /
  `mpz_urandomm` take one raw draw each from the stream. Properties that
  need the primitives to behave take that as a premise.
- The probability that Miller-Rabin errs is idealised away in
  `PrimalitySound`.
- Seeding from the operating system (`GM::new`, gm.rs:26-33;
  `Paillier::new`, paillier.rs:28-35) is out of scope: randomness is an
  explicit state.
- Probabilistic claims are not stated, because they are about
  distributions, not single runs. This covers two encryptions of the same
  bit differing (tests.rs:33, 37) and the uniformity of the samples.
- Benchmarks (tests.rs:59-70, 121-164 except the fast-L identity),
  gmp/src/mpf.rs and gmp/src/mpq.rs (floating and rational numbers) and
  src/lib.rs (module wiring) are not modelled.
- Rng.GeneratePrime: the unbounded `loop` is bounded by `tries`, and
  running out is `Exhausted`. The same holds for every rejection loop: the
  randomizer loops, the non-residue loop, and the p ≠ q loop of the GM key.
- Rng.StrongPrimeWith: the tail recursion at rng.rs:33 is a retry that
  spends one of `tries`, and the prime walk at rng.rs:28-37 is bounded by
  `walk`.
- Paillier.AddConst: the constant is a natural number. GMP's `powm` with a
  negative exponent inverts the base first, and that case is not modelled.
- Paillier.MulConst: likewise, the constant is a natural number.
- Paillier.GenerateKey: the code never asserts the bit length of n, so no
  bound on it is stated.
- GoldwasserMicali.Decrypt and Residues.Legendre: the symbol is defined
  for any p > 0 through squares modulo p. This is `mpz_legendre` only for
  odd primes, which is the only case the keys produce.
- The `usize` and `u64` widths of `len` are unbounded naturals. Only the
  underflow of `len - 1` at rng.rs:6 is modelled, because no realistic key
  size reaches 2^64.

## Findings

| source | as written | input that shows it | evidently intended | confidence | as-written member | corrected member |
|---|---|---|---|---|---|---|
| src/rng.rs:36 | the prime walk steps with `p = p + a`, so after k steps p - 1 ≡ a·k (mod pp): pp divides p - 1 only when pp divides a·k, and the "large prime factor of p - 1" is kept only by accident | len = 8, every draw 0, nextprime(8) = 11: pp = 11, a = 16, walk 177 (composite) then 193 (prime); 192 mod 11 = 5 | step by `pp`, keeping p = pp·(a + k) + 1 | high; not executed | Rng.GenerateStrongPrimeAsWritten, Rng.AsWrittenStrongPrimeLosesDivisor, Rng.AsWrittenWalkDivisor | Rng.GenerateStrongPrime, Rng.CorrectedWalkInvariant, Rng.CorrectedStrongPrimeKeepsDivisor |
| src/paillier.rs:40-41 | p and q come from two independent calls with no check that they differ (gm.rs:39-41 has one); with p = q the modulus is p² and decryption is wrong | keysize 8, every draw 0, nextprime(2) = 3: p = q = 13, n = 169, λ = 144, μ = 27; m = 0 with r = 2 encrypts to 20191, which decrypts to 130 | resample q until q ≠ p, as Goldwasser-Micali does | high; not executed | Paillier.GenerateKeyAsWritten, Paillier.AsWrittenKeyRepeatsPrime, Paillier.RepeatedPrimeBreaksDecryption | Paillier.GenerateKey, Paillier.GenerateKeyValid, Paillier.RoundTrip |

=== FILE: arith.dfy ===
/** Integer arithmetic as the bignum library provides it: powers, canonical
    residues, truncating division, and the modular facts the cryptosystems
    rest on. Dafny's `/` and `%` are Euclidean; GMP's `tdiv` operators used by
    Rust's `Mpz` truncate toward zero, so both are spelled out here. */
module Arith {

  /** b raised to the power e. */
  function Pow(b: int, e: nat): int
  {
    if e == 0 then 1 else b * Pow(b, e - 1)
  }

  /** mpz_powm with a non-negative exponent: the canonical residue of b^e. */
  function PowMod(b: int, e: nat, m: int): (r: int)
    requires m > 0
    ensures 0 <= r < m
  {
    Pow(b, e) % m
  }

  /** Square-and-multiply, the way mpz_powm evaluates b^e mod m, reducing
      after every step. */
  function PowModBySquaring(b: int, e: nat, m: int): int
    requires m > 0
    decreases e
  {
    if e == 0 then 1 % m
    else if e % 2 == 0 then
      var h := PowModBySquaring(b, e / 2, m);
      (h * h) % m
    else ((b % m) * PowModBySquaring(b, e - 1, m)) % m
  }

  /** Square-and-multiply computes the canonical residue of b^e. */
  lemma {:induction false} PowModBySquaringCorrect(b: int, e: nat, m: int)
    requires m > 0
    decreases e
    ensures PowModBySquaring(b, e, m) == PowMod(b, e, m)
  {
    if e > 0 && e % 2 == 0 {
      PowModBySquaringCorrect(b, e / 2, m);
      PowAdd(b, e / 2, e / 2);
      MulMod(Pow(b, e / 2), Pow(b, e / 2), m);
    } else if e > 0 {
      PowModBySquaringCorrect(b, e - 1, m);
      MulMod(b, Pow(b, e - 1), m);
      ModMod(b, m);
      MulMod(b % m, Pow(b, e - 1), m);
    }
  }

  /** Quotient rounded toward zero (mpz_tdiv_q, Rust's `/` on Mpz). */
  function TDiv(a: int, b: int): int
    requires b > 0
  {
    if a >= 0 then a / b else -((-a) / b)
  }

  /** Remainder carrying the sign of the dividend (mpz_tdiv_r, Rust's `%` on Mpz). */
  function TRem(a: int, b: int): (r: int)
    requires b > 0
    ensures a >= 0 ==> 0 <= r < b
    ensures a < 0 ==> -b < r <= 0
    ensures r % b == a % b
    ensures a == TDiv(a, b) * b + r
  {
    if a >= 0 then a % b
    else
      TRemNegative(a, b);
      -((-a) % b)
  }

  lemma TRemNegative(a: int, b: int)
    requires a < 0 && b > 0
    ensures -b < -((-a) % b) <= 0
    ensures (-((-a) % b)) % b == a % b
    ensures a == TDiv(a, b) * b + -((-a) % b)
  {
    var q, r := (-a) / b, (-a) % b;
    assert -a == q * b + r;
    assert a == -r + (-q) * b;
    ModAddMultiple(-r, -q, b);
  }

  /** An exact truncating quotient multiplies back to the dividend. */
  lemma TDivExact(a: int, b: int)
    requires b > 0 && a % b == 0
    ensures TDiv(a, b) * b == a
  {
    if a < 0 {
      var k := a / b;
      assert a == k * b;
      assert -a == (-k) * b;
      DivModUnique(-a, -k, 0, b);
    }
  }

  lemma MulNonNegative(a: int, b: int)
    requires a >= 0 && b >= 0
    ensures a * b >= 0
  {
  }

  // ---------------------------------------------------------------------
  // Division and remainder

  lemma MulSign(x: int, m: int)
    requires m > 0
    ensures x >= 1 ==> x * m >= m
    ensures x <= -1 ==> x * m <= -m
  {
    if x >= 1 { assert x * m == (x - 1) * m + m; }
    if x <= -1 { assert x * m == -((-x - 1) * m) - m; }
  }

  /** Quotient and remainder are determined by a = q*m + r with 0 <= r < m. */
  lemma DivModUnique(a: int, q: int, r: int, m: int)
    requires m > 0 && 0 <= r < m && a == q * m + r
    ensures a % m == r && a / m == q
  {
    var q', r' := a / m, a % m;
    assert (q - q') * m == r' - r;
    MulSign(q - q', m);
  }

  lemma ModAddMultiple(a: int, k: int, m: int)
    requires m > 0
    ensures (a + k * m) % m == a % m
  {
    DivModUnique(a + k * m, a / m + k, a % m, m);
  }

  lemma ModOfMultiple(k: int, m: int)
    requires m > 0
    ensures (k * m) % m == 0
  {
    ModAddMultiple(0, k, m);
  }

  lemma ModSmall(a: int, m: int)
    requires 0 <= a < m
    ensures a % m == a
  {
    DivModUnique(a, 0, a, m);
  }

  lemma ModMod(a: int, m: int)
    requires m > 0
    ensures (a % m) % m == a % m
  {
    ModSmall(a % m, m);
  }

  /** Reducing modulo a multiple of m first does not change the residue mod m. */
  lemma ModOfModMultiple(a: int, m: int, k: int)
    requires m > 0 && k > 0
    ensures (a % (m * k)) % m == a % m
  {
    assert a == a % (m * k) + ((a / (m * k)) * k) * m;
    ModAddMultiple(a % (m * k), (a / (m * k)) * k, m);
  }

  lemma MulModLeft(a: int, b: int, m: int)
    requires m > 0
    ensures (a * b) % m == ((a % m) * b) % m
  {
    assert a * b == (a % m) * b + ((a / m) * b) * m;
    ModAddMultiple((a % m) * b, (a / m) * b, m);
  }

  lemma MulMod(a: int, b: int, m: int)
    requires m > 0
    ensures (a * b) % m == ((a % m) * (b % m)) % m
  {
    MulModLeft(a, b, m);
    MulModLeft(b, a % m, m);
    assert (a % m) * b == b * (a % m);
    assert (b % m) * (a % m) == (a % m) * (b % m);
  }

  lemma AddMod(a: int, b: int, m: int)
    requires m > 0
    ensures (a + b) % m == ((a % m) + (b % m)) % m
  {
    assert a + b == (a % m) + (b % m) + (a / m + b / m) * m;
    ModAddMultiple((a % m) + (b % m), a / m + b / m, m);
  }

  /** Equal residues stay equal after multiplying both sides by c. */
  lemma MulCongruent(a: int, b: int, c: int, m: int)
    requires m > 0 && a % m == b % m
    ensures (a * c) % m == (b * c) % m
  {
    MulModLeft(a, c, m);
    MulModLeft(b, c, m);
  }

  /** a is congruent to b modulo m exactly when m divides a - b. */
  lemma CongruentIffDivides(a: int, b: int, m: int)
    requires m > 0
    ensures a % m == b % m <==> (a - b) % m == 0
  {
    var d := a % m - b % m;
    assert a - b == d + (a / m - b / m) * m;
    ModAddMultiple(d, a / m - b / m, m);
    if d >= 0 {
      ModSmall(d, m);
    } else {
      DivModUnique(d, -1, d + m, m);
    }
  }

  // ---------------------------------------------------------------------
  // Powers

  lemma {:induction false} PowNonNegative(b: int, e: nat)
    requires b >= 0
    ensures Pow(b, e) >= 0
  {
    if e > 0 {
      PowNonNegative(b, e - 1);
    }
  }

  lemma {:induction false} PowOfOne(e: nat)
    ensures Pow(1, e) == 1
  {
    if e > 0 {
      PowOfOne(e - 1);
    }
  }

  lemma {:induction false} PowAdd(b: int, e1: nat, e2: nat)
    ensures Pow(b, e1 + e2) == Pow(b, e1) * Pow(b, e2)
  {
    if e1 > 0 {
      PowAdd(b, e1 - 1, e2);
      assert Pow(b, e1 + e2) == b * Pow(b, e1 - 1 + e2);
    }
  }

  lemma {:induction false} PowMul(b: int, e1: nat, e2: nat)
    ensures Pow(b, e1 * e2) == Pow(Pow(b, e1), e2)
  {
    if e2 > 0 {
      var x: nat := e1 * (e2 - 1);
      var y: nat := e1 * e2;
      MulStep(e1, e2);
      PowMul(b, e1, e2 - 1);
      PowAdd(b, x, e1);
      var c := Pow(b, e1);
      assert Pow(c, e2) == c * Pow(c, e2 - 1);
      assert Pow(b, y) == Pow(b, x) * c;
    }
  }

  lemma MulStep(e1: nat, e2: nat)
    requires e2 > 0
    ensures e1 * e2 == e1 * (e2 - 1) + e1
  {
  }

  lemma {:induction false} PowProduct(a: int, b: int, e: nat)
    ensures Pow(a * b, e) == Pow(a, e) * Pow(b, e)
  {
    if e > 0 {
      PowProduct(a, b, e - 1);
      var x, y := Pow(a, e - 1), Pow(b, e - 1);
      assert Pow(a * b, e) == (a * b) * (x * y);
      assert Pow(a, e) * Pow(b, e) == (a * x) * (b * y);
      assert (a * b) * (x * y) == (a * x) * (b * y);
    }
  }

  /** The residue of a power depends only on the residue of its base. */
  lemma {:induction false} PowModBase(b: int, e: nat, m: int)
    requires m > 0
    ensures Pow(b % m, e) % m == Pow(b, e) % m
  {
    if e > 0 {
      PowModBase(b, e - 1, m);
      MulMod(b % m, Pow(b % m, e - 1), m);
      MulMod(b, Pow(b, e - 1), m);
      ModMod(b, m);
    }
  }

  /** A base congruent to 1 keeps every power congruent to 1. */
  lemma PowOfUnitResidue(b: int, e: nat, m: int)
    requires m > 1 && b % m == 1
    ensures Pow(b, e) % m == 1
  {
    PowModBase(b, e, m);
    PowOfOne(e);
    ModSmall(1, m);
  }

  /** Congruent bases have congruent powers. */
  lemma PowCongruent(a: int, b: int, e: nat, m: int)
    requires m > 0 && a % m == b % m
    ensures Pow(a, e) % m == Pow(b, e) % m
  {
    PowModBase(a, e, m);
    PowModBase(b, e, m);
  }

  /** Binomial shortcut: (1 + k*m)^j is congruent to 1 + j*k*m modulo m^2,
      because every further term of the expansion carries m^2. */
  lemma {:induction false} OnePlusMultiplePow(k: int, m: int, j: nat)
    requires m > 0
    ensures Pow(1 + k * m, j) % (m * m) == (1 + j * k * m) % (m * m)
  {
    if j > 0 {
      var mm := m * m;
      OnePlusMultiplePow(k, m, j - 1);
      calc {
        Pow(1 + k * m, j) % mm;
        ((1 + k * m) * Pow(1 + k * m, j - 1)) % mm;
        { MulCongruent(Pow(1 + k * m, j - 1), 1 + (j - 1) * k * m, 1 + k * m, mm); }
        ((1 + k * m) * (1 + (j - 1) * k * m)) % mm;
        { assert (1 + k * m) * (1 + (j - 1) * k * m) == 1 + j * k * m + ((j - 1) * k * k) * mm;
          ModAddMultiple(1 + j * k * m, (j - 1) * k * k, mm); }
        (1 + j * k * m) % mm;
      }
    }
  }
}

=== FILE: bits.dfy ===
/** Binary structure of non-negative integers: powers of two, the bit length
    reported by mpz_sizeinbase(a, 2), and the single-bit set of mpz_setbit. */
module Bits {
  import opened Arith

  /** 2 raised to the power e. */
  function Pow2(e: nat): (r: nat)
    ensures r >= 1
  {
    if e == 0 then 1 else 2 * Pow2(e - 1)
  }

  /** Number of binary digits of a. Like mpz_sizeinbase(a, 2), zero counts
      as one digit. */
  function BitLength(a: nat): (r: nat)
    ensures r >= 1
  {
    if a < 2 then 1 else 1 + BitLength(a / 2)
  }

  /** Whether bit i of a is set (mpz_tstbit). */
  predicate TestBit(a: nat, i: nat)
  {
    (a / Pow2(i)) % 2 == 1
  }

  /** mpz_setbit: a with bit i set and every other bit unchanged. */
  function SetBit(a: nat, i: nat): (r: nat)
    ensures TestBit(r, i)
    ensures r % Pow2(i) == a % Pow2(i)
    ensures r / Pow2(i + 1) == a / Pow2(i + 1)
    ensures !TestBit(a, i) ==> r == a + Pow2(i)
  {
    SetBitLemma(a, i);
    if TestBit(a, i) then a else a + Pow2(i)
  }

  lemma SetBitLemma(a: nat, i: nat)
    ensures !TestBit(a, i) ==> TestBit(a + Pow2(i), i)
    ensures (a + Pow2(i)) % Pow2(i) == a % Pow2(i)
    ensures !TestBit(a, i) ==> (a + Pow2(i)) / Pow2(i + 1) == a / Pow2(i + 1)
  {
    var p := Pow2(i);
    var q, l := a / p, a % p;
    assert a + p == (q + 1) * p + l;
    DivModUnique(a + p, q + 1, l, p);
    assert Pow2(i + 1) == 2 * p;
    DivByDouble(a, p);
    DivByDouble(a + p, p);
  }

  // ---------------------------------------------------------------------
  // Helpers on division by a power of two

  /** Dividing by 2p is dividing by p and then by 2. */
  lemma DivByDouble(a: nat, p: nat)
    requires p > 0
    ensures a / (2 * p) == (a / p) / 2
  {
    var q := a / p;
    var h := q / 2;
    assert a == q * p + a % p;
    assert q == 2 * h + q % 2;
    assert a == h * (2 * p) + ((q % 2) * p + a % p);
    DivModUnique(a, h, (q % 2) * p + a % p, 2 * p);
  }

  // ---------------------------------------------------------------------
  // Powers of two

  lemma {:induction false} Pow2Add(i: nat, j: nat)
    ensures Pow2(i + j) == Pow2(i) * Pow2(j)
  {
    if i > 0 {
      Pow2Add(i - 1, j);
      assert Pow2(i + j) == 2 * Pow2(i - 1 + j);
    }
  }

  lemma {:induction false} Pow2Monotone(i: nat, j: nat)
    ensures i < j ==> Pow2(i) < Pow2(j)
    ensures i <= j ==> Pow2(i) <= Pow2(j)
  {
    if i < j {
      Pow2Monotone(i, j - 1);
    }
  }

  // ---------------------------------------------------------------------
  // Bit length

  /** A positive a has bit length len exactly when 2^(len-1) <= a < 2^len. */
  lemma {:induction false} BitLengthIff(a: nat, len: nat)
    requires a >= 1 && len >= 1
    ensures BitLength(a) == len <==> Pow2(len - 1) <= a < Pow2(len)
  {
    if a < 2 {
      if len >= 2 {
        Pow2Monotone(1, len - 1);
      }
    } else if len == 1 {
    } else {
      BitLengthIff(a / 2, len - 1);
      assert Pow2(len - 1) == 2 * Pow2(len - 2);
    }
  }

  /** Every positive value lies between the powers of two its bit length names. */
  lemma BitLengthBounds(a: nat)
    requires a >= 1
    ensures Pow2(BitLength(a) - 1) <= a < Pow2(BitLength(a))
  {
    BitLengthIff(a, BitLength(a));
  }

  /** A value of at least 2^(len-1) has at least len bits. */
  lemma BitLengthAtLeast(a: nat, len: nat)
    requires len >= 1 && a >= Pow2(len - 1)
    ensures BitLength(a) >= len
  {
    BitLengthBounds(a);
    Pow2Monotone(BitLength(a), len - 1);
  }

  /** A value with at least len bits is at least 2^(len-1). */
  lemma BitLengthLowerBound(a: nat, len: nat)
    requires len >= 1 && a >= 1 && BitLength(a) >= len
    ensures a >= Pow2(len - 1)
  {
    BitLengthBounds(a);
    Pow2Monotone(len - 1, BitLength(a) - 1);
  }
}

=== FILE: fermat.dfy ===
/** Fermat's little theorem and its lift to the modulus n^2 used by Paillier:
    for distinct primes p, q and n = p*q, every a coprime to n satisfies
    a^(n*(p-1)*(q-1)) == 1 (mod n^2). This is the Euler/Carmichael fact that
    makes the randomizer r^n vanish under decryption. The proof goes through
    the binomial theorem, p | C(p, k) for 0 < k < p, and the Chinese
    remainder step of Primes.SquaresDivide. */
module Fermat {
  import opened Arith
  import opened Primes

  /** Binomial coefficient C(n, k), by Pascal's rule. */
  function Binom(n: nat, k: nat): nat
  {
    if k == 0 then 1
    else if n == 0 then 0
    else Binom(n - 1, k - 1) + Binom(n - 1, k)
  }

  /** Partial binomial expansion: the sum of C(n, i) * a^i for i from 0 to j. */
  function BinomSum(n: nat, a: int, j: nat): int
  {
    if j == 0 then 1 else BinomSum(n, a, j - 1) + Binom(n, j) * Pow(a, j)
  }

  // ---------------------------------------------------------------------
  // Binomial coefficients

  lemma {:induction false} BinomAbove(n: nat, k: nat)
    requires k > n
    ensures Binom(n, k) == 0
  {
    if n > 0 {
      BinomAbove(n - 1, k - 1);
      BinomAbove(n - 1, k);
    }
  }

  lemma {:induction false} BinomDiagonal(n: nat)
    ensures Binom(n, n) == 1
  {
    if n > 0 {
      BinomDiagonal(n - 1);
      BinomAbove(n - 1, n);
    }
  }

  /** Absorption identity: k * C(n, k) == n * C(n-1, k-1). */
  lemma {:induction false} Absorption(n: nat, k: nat)
    requires n >= 1 && k >= 1
    ensures k * Binom(n, k) == n * Binom(n - 1, k - 1)
  {
    if n == 1 {
      if k >= 2 {
        BinomAbove(0, k - 1);
        BinomAbove(0, k);
      }
    } else {
      var m := n - 1;
      var a, b, c1 := Binom(m, k - 1), Binom(m, k), Binom(m - 1, k - 1);
      assert Binom(n, k) == a + b;
      if k <= m {
        Absorption(m, k);
      } else {
        BinomAbove(m, k);
        BinomAbove(m - 1, k - 1);
      }
      assert k * b == m * c1;
      if k == 1 {
        assert a == 1;
      } else {
        var c2 := Binom(m - 1, k - 2);
        Absorption(m, k - 1);
        assert Binom(m, k - 1) == c2 + c1;
        AbsorptionStep(k, m, a, b, c1, c2);
      }
    }
  }

  /** A prime p divides C(p, k) whenever 0 < k < p. */
  lemma PrimeDividesBinom(p: nat, k: nat)
    requires IsPrime(p) && 0 < k < p
    ensures Binom(p, k) % p == 0
  {
    var b, c := Binom(p, k), Binom(p - 1, k - 1);
    Absorption(p, k);
    MultipleDivisible(k * b, c, p);
    ModSmall(k, p);
    Euclid(k, b, p);
  }

  lemma MultipleDivisible(x: int, c: int, p: int)
    requires p > 0 && x == p * c
    ensures x % p == 0
  {
    assert x == c * p;
    ModOfMultiple(c, p);
  }

  // ---------------------------------------------------------------------
  // Binomial theorem for (a + 1)^n

  /** Pascal's rule lifted to partial sums. */
  lemma {:induction false} BinomSumStep(n: nat, a: int, j: nat)
    requires j >= 1
    ensures BinomSum(n + 1, a, j) == BinomSum(n, a, j) + a * BinomSum(n, a, j - 1)
  {
    if j == 1 {
      assert Pow(a, 1) == a;
      assert Binom(n + 1, 1) == 1 + Binom(n, 1);
    } else {
      BinomSumStep(n, a, j - 1);
      var x, y := Pow(a, j - 1), Pow(a, j);
      assert y == a * x;
      var s1, s2 := BinomSum(n, a, j - 1), BinomSum(n, a, j - 2);
      var c0, c1 := Binom(n, j - 1), Binom(n, j);
      assert Binom(n + 1, j) == c0 + c1;
      assert BinomSum(n + 1, a, j - 1) == s1 + a * s2;
      assert s1 == s2 + c0 * x;
      PascalSumStep(s1, s2, a, c0, c1, x, y);
    }
  }

  lemma AbsorptionStep(k: int, m: int, a: int, b: int, c1: int, c2: int)
    requires k * b == m * c1 && (k - 1) * a == m * c2 && a == c2 + c1
    ensures k * (a + b) == (m + 1) * a
  {
    assert k * (a + b) == (k - 1) * a + a + k * b;
    assert m * c2 + m * c1 == m * (c2 + c1);
  }

  lemma PascalSumStep(s1: int, s2: int, a: int, c0: int, c1: int, x: int, y: int)
    requires y == a * x
    ensures s1 + a * s2 + (c0 + c1) * y == (s1 + c1 * y) + a * (s2 + c0 * x)
  {
    assert c0 * y == a * (c0 * x);
  }

  /** The binomial theorem: (a + 1)^n == sum of C(n, i) * a^i for i from 0 to n. */
  lemma {:induction false} BinomialTheorem(a: int, n: nat)
    ensures Pow(a + 1, n) == BinomSum(n, a, n)
  {
    if n > 0 {
      var m := n - 1;
      BinomialTheorem(a, m);
      BinomSumStep(m, a, n);
      BinomAbove(m, n);
      calc {
        BinomSum(n, a, n);
        BinomSum(m, a, n) + a * BinomSum(m, a, m);
        BinomSum(m, a, m) + a * BinomSum(m, a, m);
        (a + 1) * Pow(a + 1, m);
      }
    }
  }

  /** Modulo a prime p, the inner terms of the expansion of (a + 1)^p vanish. */
  lemma {:induction false} InnerTermsVanish(p: nat, a: int, j: nat)
    requires IsPrime(p) && j < p
    ensures BinomSum(p, a, j) % p == 1
  {
    if j == 0 {
      ModSmall(1, p);
    } else {
      InnerTermsVanish(p, a, j - 1);
      PrimeDividesBinom(p, j);
      DividesProduct(Binom(p, j), Pow(a, j), p);
      var y := Binom(p, j) * Pow(a, j);
      assert y == (y / p) * p;
      ModAddMultiple(BinomSum(p, a, j - 1), y / p, p);
    }
  }

  /** (a + 1)^p == a^p + 1 (mod p) for a prime p. */
  lemma FreshmansDream(a: int, p: nat)
    requires IsPrime(p)
    ensures Pow(a + 1, p) % p == (Pow(a, p) + 1) % p
  {
    BinomialTheorem(a, p);
    BinomDiagonal(p);
    InnerTermsVanish(p, a, p - 1);
    assert BinomSum(p, a, p) == BinomSum(p, a, p - 1) + Pow(a, p);
    AddMod(BinomSum(p, a, p - 1), Pow(a, p), p);
    AddMod(1, Pow(a, p), p);
    ModSmall(1, p);
  }

  // ---------------------------------------------------------------------
  // Fermat and Euler

  /** a^p == a (mod p) for every natural a and prime p. */
  lemma {:induction false} FermatPower(a: nat, p: nat)
    requires IsPrime(p)
    ensures Pow(a, p) % p == a % p
  {
    if a == 0 {
      assert Pow(0, p) == 0 * Pow(0, p - 1);
    } else {
      FermatPower(a - 1, p);
      FreshmansDream(a - 1, p);
      AddMod(Pow(a - 1, p), 1, p);
      AddMod(a - 1, 1, p);
    }
  }

  /** Fermat's little theorem: a^(p-1) == 1 (mod p) when p does not divide a. */
  lemma FermatLittle(a: int, p: nat)
    requires IsPrime(p) && a % p != 0
    ensures Pow(a, p - 1) % p == 1
  {
    var r: nat := a % p;
    FermatPower(r, p);
    ModSmall(r, p);
    var x := Pow(r, p - 1);
    assert Pow(r, p) == r * x;
    CongruentIffDivides(r * x, r, p);
    assert r * x - r == r * (x - 1);
    Euclid(r, x - 1, p);
    CongruentIffDivides(x, 1, p);
    ModSmall(1, p);
    PowModBase(a, p - 1, p);
  }

  /** A value congruent to 1 modulo p has its p-th power congruent to 1 modulo p^2. */
  lemma LiftToSquare(x: int, p: nat)
    requires p >= 2 && x % p == 1
    ensures Pow(x, p) % (p * p) == 1
  {
    var k := x / p;
    var pp := p * p;
    assert x == 1 + k * p;
    assert Pow(x, p) % pp == (1 + p * k * p) % pp by {
      OnePlusMultiplePow(k, p, p);
    }
    assert p * k * p == k * pp by {
      assert p * k == k * p;
    }
    assert (1 + k * pp) % pp == 1 by {
      MulLe(2, 2, p, p);
      ModAddMultiple(1, k, p * p);
      ModSmall(1, p * p);
    }
  }

  /** Euler's theorem modulo p^2: a^(p*(p-1)) == 1 (mod p^2) when p does not divide a. */
  lemma EulerSquare(a: int, p: nat)
    requires IsPrime(p) && a % p != 0
    ensures Pow(a, p * (p - 1)) % (p * p) == 1
  {
    FermatLittle(a, p);
    LiftToSquare(Pow(a, p - 1), p);
    PowMul(a, p - 1, p);
    assert (p - 1) * p == p * (p - 1);
  }

  /** The Carmichael-style fact behind Paillier decryption: for distinct primes
      p, q, n = p*q and lambda = (p-1)*(q-1), every a divisible by neither
      satisfies a^(n*lambda) == 1 (mod n^2). */
  lemma CarmichaelSquare(a: int, p: nat, q: nat, n: nat, lambda: nat)
    requires IsPrime(p) && IsPrime(q) && p != q
    requires a % p != 0 && a % q != 0
    requires n == p * q && lambda == (p - 1) * (q - 1)
    ensures Pow(a, n * lambda) % (n * n) == 1
  {
    MulNonNegative(p, p - 1);
    MulNonNegative(q, q - 1);
    var ep: nat, eq: nat := p * (p - 1), q * (q - 1);
    assert n * lambda == ep * eq && n * lambda == eq * ep by {
      assert n * lambda == (p * q) * ((p - 1) * (q - 1));
      Regroup(p, q, p - 1, q - 1);
    }
    var x := Pow(a, n * lambda);
    UnitPowerModSquare(a, p, ep, eq);
    UnitPowerModSquare(a, q, eq, ep);
    SquaresDivide(x - 1, p, q);
    assert n * n > 1 by {
      MulLe(2, 2, p, q);
      MulLe(2, 2, n, n);
    }
    CongruentIffDivides(x, 1, n * n);
    ModSmall(1, n * n);
  }

  lemma Regroup(a: int, b: int, c: int, d: int)
    ensures (a * b) * (c * d) == (a * c) * (b * d)
    ensures (a * b) * (c * d) == (b * d) * (a * c)
  {
  }

  /** Any multiple of the Euler exponent p*(p-1) sends a unit to 1 modulo p^2. */
  lemma UnitPowerModSquare(a: int, p: nat, e1: nat, e2: nat)
    requires IsPrime(p) && a % p != 0 && e1 == p * (p - 1)
    ensures (Pow(a, e1 * e2) - 1) % (p * p) == 0
  {
    MulLe(2, 2, p, p);
    EulerSquare(a, p);
    PowMul(a, e1, e2);
    PowOfUnitResidue(Pow(a, e1), e2, p * p);
    ModSmall(1, p * p);
    CongruentIffDivides(Pow(a, e1 * e2), 1, p * p);
  }
}

=== FILE: gm.dfy ===
/** The Goldwasser-Micali cryptosystem of gm.rs. A bit b is encrypted as
    y^2 * x^b mod n, where n = p*q and x is a non-residue modulo both primes;
    decryption asks whether the ciphertext is a residue modulo p and q, and
    the product of two ciphertexts encrypts the XOR of their bits. */
module GoldwasserMicali {
  import opened Arith
  import opened Bits
  import opened Primes
  import opened Residues
  import opened Rng

  /** GmPk: the modulus and the public non-residue. */
  datatype PublicKey = PublicKey(n: nat, x: nat)

  /** GmSk: the two primes. */
  datatype SecretKey = SecretKey(p: nat, q: nat)

  datatype KeyPair = KeyPair(pk: PublicKey, sk: SecretKey)

  /** What correctness rests on: n = p*q for distinct primes, and x a
      non-residue modulo both of them. */
  predicate ValidKey(kp: KeyPair)
  {
    && IsPrime(kp.sk.p) && IsPrime(kp.sk.q) && kp.sk.p != kp.sk.q
    && kp.pk.n == kp.sk.p * kp.sk.q
    && Legendre(kp.pk.x, kp.sk.p) == -1 && Legendre(kp.pk.x, kp.sk.q) == -1
  }

  // ---------------------------------------------------------------------
  // Key generation

  /** The modulus of two primes of k/2 + 1 and k/2 bits has at least k bits
      (the assertion at gm.rs:43). */
  lemma ModulusLength(p: nat, q: nat, keysize: nat)
    requires keysize % 2 == 0 && keysize >= 2
    requires BitLength(p) == keysize / 2 + 1 && BitLength(q) == keysize / 2 && q >= 1
    ensures BitLength(p * q) >= keysize
  {
    var h := keysize / 2;
    BitLengthLowerBound(p, h + 1);
    BitLengthLowerBound(q, h);
    Pow2Add(h, h - 1);
    MulLe(Pow2(h), Pow2(h - 1), p, q);
    BitLengthAtLeast(p * q, keysize);
  }

  /** gm.rs:45-50: mpz_urandomm below n until the draw is a non-residue
      modulo both primes. */
  function ChooseNonResidue(rs: RandState, n: nat, p: nat, q: nat, tries: nat): (r: Outcome<nat>)
    requires n > 0 && p > 0 && q > 0
    ensures r.Done? || r.Exhausted?
    ensures r.Done? ==> r.value < n && Legendre(r.value, p) == -1 && Legendre(r.value, q) == -1
    ensures r.Done? ==> r.rest.stream == rs.stream && rs.drawn < r.rest.drawn
    ensures r.Done? ==> r.value == rs.stream(r.rest.drawn - 1) % n
  {
    Sample(rs, (raw: nat) => raw % n, (x: nat) => Legendre(x, p) == -1 && Legendre(x, q) == -1, tries)
  }

  /** GM::generate_key: p of keysize/2 + 1 bits and a distinct q of
      keysize/2 bits (both strong primes from generate_strong_prime as written,
      walking by the multiplier a), n = p*q, then the non-residue x. */
  function GenerateKey(rs: RandState, o: Oracle, keysize: nat, tries: nat, walk: nat): (r: Outcome<KeyPair>)
    ensures keysize % 2 != 0 ==> r.Panicked?
    ensures keysize % 2 == 0 && keysize >= 8 ==> !r.Panicked?
    ensures r.Done? ==> keysize % 2 == 0
    ensures r.Done? ==> r.value.pk.n == r.value.sk.p * r.value.sk.q && r.value.sk.p != r.value.sk.q
    ensures r.Done? ==> BitLength(r.value.sk.p) == keysize / 2 + 1 && BitLength(r.value.sk.q) == keysize / 2
    ensures r.Done? ==> BitLength(r.value.pk.n) >= keysize
    ensures r.Done? ==> o.probablyPrime(r.value.sk.p) && o.probablyPrime(r.value.sk.q)
    ensures r.Done? ==> r.value.pk.x < r.value.pk.n && r.value.sk.p >= 2 && r.value.sk.q >= 2
    ensures r.Done? ==> Legendre(r.value.pk.x, r.value.sk.p) == -1 && Legendre(r.value.pk.x, r.value.sk.q) == -1
    ensures r.Done? && PrimalitySound(o) ==> ValidKey(r.value)
  {
    if keysize % 2 != 0 then Panicked("assertion keysize % 2 == 0")
    else
      match GenerateStrongPrimeAsWritten(rs, o, keysize / 2 + 1, tries, walk)
      case Exhausted => Exhausted
      case Panicked(why) => Panicked(why)
      case Done(sp, rs1) =>
        match DistinctStrongPrime(rs1, o, keysize / 2, sp.p, tries, walk, StepByMultiplier)
        case Exhausted => Exhausted
        case Panicked(why) => Panicked(why)
        case Done(sq, rs2) =>
          assert sp.p >= 2 && sq.p >= 2;
          ModulusLength(sp.p, sq.p, keysize);
          FinishKey(rs2, sp.p, sq.p, keysize, tries)
  }

  /** gm.rs:42-52 once p and q are chosen: n = p*q, the bit-length
      assertion, and the search for x. */
  function FinishKey(rs: RandState, p: nat, q: nat, keysize: nat, tries: nat): (r: Outcome<KeyPair>)
    requires p >= 2 && q >= 2
    ensures r.Panicked? <==> BitLength(p * q) < keysize
    ensures r.Done? ==> r.value.sk == SecretKey(p, q) && r.value.pk.n == p * q && r.value.pk.x < p * q
    ensures r.Done? ==> Legendre(r.value.pk.x, p) == -1 && Legendre(r.value.pk.x, q) == -1
  {
    var n := p * q;
    MulLe(1, 1, p, q);
    if BitLength(n) < keysize then Panicked("assertion n.bit_length() >= keysize")
    else
      match ChooseNonResidue(rs, n, p, q, tries)
      case Done(x, rs1) => Done(KeyPair(PublicKey(n, x), SecretKey(p, q)), rs1)
      case Exhausted => Exhausted
  }

  // ---------------------------------------------------------------------
  // Encryption, decryption, XOR

  /** gm.rs:57, 64 for a given randomizer y: y^2 * x^m mod n, with m read
      as 0 or 1 (the `powm` exponent). */
  function EncryptWith(pk: PublicKey, m: bool, y: nat): (c: nat)
    requires pk.n > 0
    ensures c < pk.n
    ensures c % pk.n == (y * y * (if m then pk.x else 1)) % pk.n
  {
    var mm := if m then 1 else 0;
    EncryptWithLemma(pk.x, y, pk.n, m);
    ((y * y) * PowMod(pk.x, mm, pk.n)) % pk.n
  }

  lemma EncryptWithLemma(x: nat, y: nat, n: nat, m: bool)
    requires n > 0
    ensures var c := ((y * y) * PowMod(x, if m then 1 else 0, n)) % n;
      c % n == (y * y * (if m then x else 1)) % n
  {
    var c := ((y * y) * PowMod(x, if m then 1 else 0, n)) % n;
    ModMod((y * y) * PowMod(x, if m then 1 else 0, n), n);
    if m {
      assert Pow(x, 1) == x;
      MulMod(y * y, x % n, n);
      MulMod(y * y, x, n);
      ModMod(x, n);
    } else {
      assert Pow(x, 0) == 1;
      MulMod(y * y, 1, n);
      MulMod(y * y, 1 % n, n);
      ModMod(1, n);
    }
  }

  /** GM::encrypt: draw y below n coprime to n (gm.rs:59-62), then encrypt. */
  function Encrypt(rs: RandState, pk: PublicKey, m: bool, tries: nat): (r: Outcome<nat>)
    requires pk.n > 0
    ensures r.Done? || r.Exhausted?
    ensures r.Done? ==> r.value < pk.n
    ensures r.Done? ==> exists y: nat :: y < pk.n && Gcd(y, pk.n) == 1 && r.value == EncryptWith(pk, m, y)
  {
    match UrandomCoprime(rs, pk.n, tries)
    case Exhausted => Exhausted
    case Done(y, rest) => Done(EncryptWith(pk, m, y), rest)
  }

  /** GM::decrypt: true exactly when the Legendre symbol is not 1 modulo p AND
      not 1 modulo q (gm.rs:68), that is, when c is modulo each prime either
      0 or a non-square. */
  function Decrypt(sk: SecretKey, c: int): (r: bool)
    requires sk.p > 0 && sk.q > 0
    ensures r <==> (c % sk.p == 0 || !IsSquareMod(c, sk.p)) && (c % sk.q == 0 || !IsSquareMod(c, sk.q))
  {
    Legendre(c, sk.p) != 1 && Legendre(c, sk.q) != 1
  }

  /** GM::xor: the product of two ciphertexts, reduced by Rust's truncating
      `%` (so a negative product stays negative). */
  function Xor(pk: PublicKey, c1: int, c2: int): (c: int)
    requires pk.n > 0
    ensures c1 * c2 >= 0 ==> 0 <= c < pk.n
    ensures c % pk.n == (c1 * c2) % pk.n
  {
    TRem(c1 * c2, pk.n)
  }

  // ---------------------------------------------------------------------
  // Correctness

  /** c encrypts the bit b with square root z: c == z^2 * x^b (mod n), z a
      unit modulo both primes. */
  predicate EncryptsBit(kp: KeyPair, c: int, b: bool, z: int)
    requires kp.sk.p > 0 && kp.sk.q > 0 && kp.pk.n > 0
  {
    && z % kp.sk.p != 0 && z % kp.sk.q != 0
    && c % kp.pk.n == (z * z * (if b then kp.pk.x else 1)) % kp.pk.n
  }

  /** Decryption recovers the bit of every ciphertext of that shape. */
  lemma DecryptCorrect(kp: KeyPair, c: int, b: bool, z: int)
    requires ValidKey(kp) && EncryptsBit(kp, c, b, z)
    ensures Decrypt(kp.sk, c) == b
  {
    var p, q, n := kp.sk.p, kp.sk.q, kp.pk.n;
    var a := z * z * (if b then kp.pk.x else 1);
    ResidueSymbol(kp, c, a, z, b, p, q);
    ResidueSymbol(kp, c, a, z, b, q, p);
  }

  lemma ResidueSymbol(kp: KeyPair, c: int, a: int, z: int, b: bool, p: nat, q: nat)
    requires IsPrime(p) && IsPrime(q) && kp.pk.n == p * q
    requires Legendre(kp.pk.x, p) == -1
    requires z % p != 0 && a == z * z * (if b then kp.pk.x else 1) && c % kp.pk.n == a % kp.pk.n
    ensures Legendre(c, p) == if b then -1 else 1
  {
    var n := kp.pk.n;
    assert n == q * p;
    ModOfMultiple(q, p);
    LegendreReduce(c, n, p);
    LegendreReduce(a, n, p);
    SquareFactor(z, if b then kp.pk.x else 1, p);
    if !b {
      LegendreOfOne(p);
    }
  }

  /** A ciphertext built from a randomizer coprime to n has that shape. */
  lemma EncryptWithEncrypts(kp: KeyPair, m: bool, y: nat)
    requires ValidKey(kp) && Gcd(y, kp.pk.n) == 1
    ensures EncryptsBit(kp, EncryptWith(kp.pk, m, y), m, y)
  {
    var p, q := kp.sk.p, kp.sk.q;
    assert kp.pk.n == q * p;
    ModOfMultiple(q, p);
    ModOfMultiple(p, q);
    CoprimeNotDivisible(y, kp.pk.n, p);
    CoprimeNotDivisible(y, kp.pk.n, q);
  }

  /** Round trip (tests.rs gm_enc_dec): decrypt(encrypt(b)) == b. */
  lemma RoundTrip(kp: KeyPair, rs: RandState, m: bool, tries: nat)
    requires ValidKey(kp)
    ensures var r := Encrypt(rs, kp.pk, m, tries);
      r.Done? ==> Decrypt(kp.sk, r.value) == m
  {
    var r := Encrypt(rs, kp.pk, m, tries);
    if r.Done? {
      var y: nat :| y < kp.pk.n && Gcd(y, kp.pk.n) == 1 && r.value == EncryptWith(kp.pk, m, y);
      EncryptWithEncrypts(kp, m, y);
      DecryptCorrect(kp, r.value, m, y);
    }
  }

  /** The product of encryptions of b1 and b2 encrypts b1 XOR b2; its square
      root is z1*z2, times x when both bits are set. */
  lemma XorEncrypts(kp: KeyPair, c1: int, b1: bool, z1: int, c2: int, b2: bool, z2: int)
    requires ValidKey(kp) && EncryptsBit(kp, c1, b1, z1) && EncryptsBit(kp, c2, b2, z2)
    ensures EncryptsBit(kp, Xor(kp.pk, c1, c2), b1 != b2, if b1 && b2 then z1 * z2 * kp.pk.x else z1 * z2)
  {
    var p, q, n, x := kp.sk.p, kp.sk.q, kp.pk.n, kp.pk.x;
    var a1, a2 := z1 * z1 * (if b1 then x else 1), z2 * z2 * (if b2 then x else 1);
    MulMod(c1, c2, n);
    MulMod(a1, a2, n);
    XorAlgebra(z1, z2, x, b1, b2);
    var z := z1 * z2;
    ProductNotDivisible(z1, z2, p);
    ProductNotDivisible(z1, z2, q);
    if b1 && b2 {
      ProductNotDivisible(z, x, p);
      ProductNotDivisible(z, x, q);
    }
  }

  /** (z1^2 * x^b1) * (z2^2 * x^b2) == z^2 * x^(b1 XOR b2), where z takes an
      extra factor x when both bits are set. */
  lemma XorAlgebra(z1: int, z2: int, x: int, b1: bool, b2: bool)
    ensures var z := if b1 && b2 then z1 * z2 * x else z1 * z2;
      (z1 * z1 * (if b1 then x else 1)) * (z2 * z2 * (if b2 then x else 1))
        == z * z * (if b1 != b2 then x else 1)
  {
    var zz := (z1 * z2) * (z1 * z2);
    assert (z1 * z1) * (z2 * z2) == zz;
    if b1 && b2 {
      assert (z1 * z1 * x) * (z2 * z2 * x) == zz * (x * x);
      assert (z1 * z2 * x) * (z1 * z2 * x) == zz * (x * x);
    } else if b1 {
      assert (z1 * z1 * x) * (z2 * z2 * 1) == zz * x;
    } else if b2 {
      assert (z1 * z1 * 1) * (z2 * z2 * x) == zz * x;
    }
  }

  /** XOR homomorphism (tests.rs gm_xor): the product of two encryptions
      decrypts to the XOR of the two bits. */
  lemma XorRoundTrip(kp: KeyPair, rs1: RandState, b1: bool, rs2: RandState, b2: bool, tries: nat)
    requires ValidKey(kp)
    ensures var r1, r2 := Encrypt(rs1, kp.pk, b1, tries), Encrypt(rs2, kp.pk, b2, tries);
      r1.Done? && r2.Done? ==> Decrypt(kp.sk, Xor(kp.pk, r1.value, r2.value)) == (b1 != b2)
  {
    var r1, r2 := Encrypt(rs1, kp.pk, b1, tries), Encrypt(rs2, kp.pk, b2, tries);
    if r1.Done? && r2.Done? {
      var y1: nat :| y1 < kp.pk.n && Gcd(y1, kp.pk.n) == 1 && r1.value == EncryptWith(kp.pk, b1, y1);
      var y2: nat :| y2 < kp.pk.n && Gcd(y2, kp.pk.n) == 1 && r2.value == EncryptWith(kp.pk, b2, y2);
      EncryptWithEncrypts(kp, b1, y1);
      EncryptWithEncrypts(kp, b2, y2);
      XorEncrypts(kp, r1.value, b1, y1, r2.value, b2, y2);
      var z := if b1 && b2 then y1 * y2 * kp.pk.x else y1 * y2;
      DecryptCorrect(kp, Xor(kp.pk, r1.value, r2.value), b1 != b2, z);
    }
  }
}

=== FILE: paillier.dfy ===
/** The Paillier cryptosystem of paillier.rs. With n = p*q and g = n + 1, a
    message m is encrypted as (1 + m*n) * r^n mod n^2; decryption raises the
    ciphertext to lambda = (p-1)(q-1), which kills r^n and leaves
    1 + lambda*m*n, applies L(u) = (u - 1)/n and multiplies by
    mu = lambda^-1 mod n. Products of ciphertexts add plaintexts, and powers
    multiply them. */
module Paillier {
  import opened Arith
  import opened Bits
  import opened Primes
  import opened Fermat
  import opened Rng

  /** PaiPk: the modulus, its square, and the generator n + 1. */
  datatype PublicKey = PublicKey(n: nat, n2: nat, g: nat)

  /** PaiSk: lambda = (p-1)(q-1) and its inverse modulo n. */
  datatype SecretKey = SecretKey(lambda: nat, mu: nat)

  datatype KeyPair = KeyPair(pk: PublicKey, sk: SecretKey)

  // ---------------------------------------------------------------------
  // Key derivation and generation

  /** paillier.rs:43-47: the key of the primes p and q; None where
      `lambda.invert(&n).unwrap()` panics because lambda has no inverse
      modulo n. */
  function DeriveKey(p: nat, q: nat): (r: Option<KeyPair>)
    ensures r.Some? <==> p * q > 1 && Gcd(((p - 1) * (q - 1)) % (p * q), p * q) == 1
    ensures r.Some? ==> var kp := r.value;
      && kp.pk.n == p * q && kp.pk.n2 == kp.pk.n * kp.pk.n && kp.pk.g == kp.pk.n + 1
      && kp.sk.lambda == (p - 1) * (q - 1)
      && kp.sk.mu < kp.pk.n && (kp.sk.lambda * kp.sk.mu) % kp.pk.n == 1
  {
    var n := p * q;
    if p == 0 || q == 0 || n <= 1 then
      ZeroProduct(p, q);
      None
    else
      MulNonNegative(p - 1, q - 1);
      var lambda: nat := (p - 1) * (q - 1);
      match Invert(lambda, n)
      case None => None
      case Some(mu) => Some(KeyPair(PublicKey(n, n * n, n + 1), SecretKey(lambda, mu)))
  }

  lemma ZeroProduct(p: nat, q: nat)
    ensures p == 0 || q == 0 ==> p * q == 0
  {
  }

  /** The key correctness rests on: derived from two distinct primes. */
  predicate ValidKey(kp: KeyPair, p: nat, q: nat)
  {
    IsPrime(p) && IsPrime(q) && p != q && DeriveKey(p, q) == Some(kp)
  }

  /** Two odd primes of the same bit length (equal or not) always give an
      invertible lambda, so the `unwrap` at paillier.rs:46 never panics on
      keys the generator builds. */
  lemma LambdaInvertible(p: nat, q: nat)
    requires IsPrime(p) && IsPrime(q) && p >= 3 && q >= 3 && BitLength(p) == BitLength(q)
    ensures DeriveKey(p, q).Some?
  {
    LambdaNotDivisible(p, q);
    CoprimeToProduct((p - 1) * (q - 1), p, q);
    MulLe(2, 2, p, q);
  }

  /** A value prime to both p and q is invertible modulo p*q. */
  lemma CoprimeToProduct(a: int, p: nat, q: nat)
    requires IsPrime(p) && IsPrime(q) && a % p != 0 && a % q != 0
    ensures Gcd(a % (p * q), p * q) == 1
  {
    var sp := InverseModPrime(a, p);
    var sq := InverseModPrime(a, q);
    MulLe(2, 2, p, q);
    InverseModProduct(a, sp, sq, p, q);
    InverseImpliesCoprime(a, sp + sq - a * sp * sq, p * q);
  }

  /** Neither prime divides lambda when both are odd and of the same bit
      length: q - 1 < 2p, and q - 1 == p would make q = p + 1 even (and
      symmetrically for q). */
  lemma LambdaNotDivisible(p: nat, q: nat)
    requires IsPrime(p) && IsPrime(q) && p >= 3 && q >= 3 && BitLength(p) == BitLength(q)
    ensures ((p - 1) * (q - 1)) % p != 0 && ((p - 1) * (q - 1)) % q != 0
  {
    assert p % 2 != 0 && q % 2 != 0;
    assert ((p - 1) * (q - 1)) % p != 0 by {
      ModSmall(p - 1, p);
      SameLengthBelowDouble(p, q);
      NotMultipleBelowDouble(q - 1, p);
      ProductNotDivisible(p - 1, q - 1, p);
    }
    assert ((p - 1) * (q - 1)) % q != 0 by {
      ModSmall(q - 1, q);
      SameLengthBelowDouble(q, p);
      NotMultipleBelowDouble(p - 1, q);
      ProductNotDivisible(p - 1, q - 1, q);
    }
  }

  /** Two numbers of the same bit length are less than twice each other. */
  lemma SameLengthBelowDouble(p: nat, q: nat)
    requires p >= 1 && q >= 1 && BitLength(p) == BitLength(q)
    ensures q < 2 * p
  {
    BitLengthBounds(p);
    BitLengthBounds(q);
    assert Pow2(BitLength(p)) == 2 * Pow2(BitLength(p) - 1);
  }

  /** A value in (0, 2p) other than p is not a multiple of p. */
  lemma NotMultipleBelowDouble(v: int, p: int)
    requires p > 0 && 0 < v < 2 * p && v != p
    ensures v % p != 0
  {
    if v < p {
      ModSmall(v, p);
    } else {
      DivModUnique(v, 1, v - p, p);
    }
  }

  /** kp is the key of two primes p and q of len bits that passed the
      probable-prime test. */
  predicate BuiltFrom(kp: KeyPair, o: Oracle, len: nat, p: nat, q: nat)
  {
    && DeriveKey(p, q) == Some(kp) && o.probablyPrime(p) && o.probablyPrime(q)
    && BitLength(p) == len && BitLength(q) == len
  }

  /** Paillier::generate_key exactly as written: two strong primes of
      keysize/2 bits with no check that they differ (paillier.rs:40-41). */
  function GenerateKeyAsWritten(rs: RandState, o: Oracle, keysize: nat, tries: nat, walk: nat): (r: Outcome<KeyPair>)
    ensures keysize % 2 != 0 ==> r.Panicked?
    ensures r.Done? ==> exists p: nat, q: nat :: BuiltFrom(r.value, o, keysize / 2, p, q)
  {
    if keysize % 2 != 0 then Panicked("assertion keysize % 2 == 0")
    else
      match GenerateStrongPrimeAsWritten(rs, o, keysize / 2, tries, walk)
      case Exhausted => Exhausted
      case Panicked(why) => Panicked(why)
      case Done(sp, rs1) =>
        match GenerateStrongPrimeAsWritten(rs1, o, keysize / 2, tries, walk)
        case Exhausted => Exhausted
        case Panicked(why) => Panicked(why)
        case Done(sq, rs2) =>
          match DeriveKey(sp.p, sq.p)
          case None => Panicked("called `Option::unwrap()` on a `None` value")
          case Some(kp) =>
            assert BuiltFrom(kp, o, keysize / 2, sp.p, sq.p);
            Done(kp, rs2)
  }

  /** Paillier::generate_key with both corrections: the strong primes walk
      by pp (rng.rs:36), and q is drawn again while it equals p, as
      GM::generate_key does (gm.rs:39-41). */
  function GenerateKey(rs: RandState, o: Oracle, keysize: nat, tries: nat, walk: nat): (r: Outcome<KeyPair>)
    ensures keysize % 2 != 0 ==> r.Panicked?
    ensures r.Done? ==> exists p: nat, q: nat :: p != q && BuiltFrom(r.value, o, keysize / 2, p, q)
  {
    if keysize % 2 != 0 then Panicked("assertion keysize % 2 == 0")
    else
      match GenerateStrongPrime(rs, o, keysize / 2, tries, walk)
      case Exhausted => Exhausted
      case Panicked(why) => Panicked(why)
      case Done(sp, rs1) =>
        match DistinctStrongPrime(rs1, o, keysize / 2, sp.p, tries, walk, StepByHalfPrime)
        case Exhausted => Exhausted
        case Panicked(why) => Panicked(why)
        case Done(sq, rs2) =>
          match DeriveKey(sp.p, sq.p)
          case None => Panicked("called `Option::unwrap()` on a `None` value")
          case Some(kp) =>
            assert BuiltFrom(kp, o, keysize / 2, sp.p, sq.p);
            Done(kp, rs2)
  }

  /** With a sound primality test the corrected generator yields valid keys. */
  lemma GenerateKeyValid(rs: RandState, o: Oracle, keysize: nat, tries: nat, walk: nat)
    requires PrimalitySound(o)
    ensures var r := GenerateKey(rs, o, keysize, tries, walk);
      r.Done? ==> exists p: nat, q: nat :: ValidKey(r.value, p, q)
  {
    var r := GenerateKey(rs, o, keysize, tries, walk);
    if r.Done? {
      var p: nat, q: nat :| p != q && BuiltFrom(r.value, o, keysize / 2, p, q);
      assert ValidKey(r.value, p, q);
    }
  }

  /** Two probable primes of the same length of at least 4 bits always have
      a key under a sound primality test: the unwrap never panics. */
  lemma KeyExists(o: Oracle, len: nat, p: nat, q: nat)
    requires PrimalitySound(o) && len >= 4
    requires o.probablyPrime(p) && o.probablyPrime(q) && BitLength(p) == len && BitLength(q) == len
    ensures DeriveKey(p, q).Some?
  {
    assert IsPrime(p) && IsPrime(q);
    Pow2Monotone(2, len - 1);
    assert Pow2(2) == 4;
    BitLengthLowerBound(p, len);
    BitLengthLowerBound(q, len);
    LambdaInvertible(p, q);
  }

  /** For an even keysize of at least 8 the corrected generator never
      panics under a sound primality test. */
  lemma GenerateKeyNoPanic(rs: RandState, o: Oracle, keysize: nat, tries: nat, walk: nat)
    requires PrimalitySound(o) && keysize % 2 == 0 && keysize >= 8
    ensures !GenerateKey(rs, o, keysize, tries, walk).Panicked?
  {
    var len := keysize / 2;
    match GenerateStrongPrime(rs, o, len, tries, walk)
    case Exhausted =>
    case Panicked(_) =>
    case Done(sp, rs1) =>
      match DistinctStrongPrime(rs1, o, len, sp.p, tries, walk, StepByHalfPrime)
      case Exhausted =>
      case Panicked(_) =>
      case Done(sq, rs2) =>
        KeyExists(o, len, sp.p, sq.p);
  }

  /** Neither does the as-written one: lambda stays invertible when p == q,
      so the repeated prime goes unnoticed. */
  lemma GenerateKeyAsWrittenNoPanic(rs: RandState, o: Oracle, keysize: nat, tries: nat, walk: nat)
    requires PrimalitySound(o) && keysize % 2 == 0 && keysize >= 8
    ensures !GenerateKeyAsWritten(rs, o, keysize, tries, walk).Panicked?
  {
    var len := keysize / 2;
    match GenerateStrongPrimeAsWritten(rs, o, len, tries, walk)
    case Exhausted =>
    case Panicked(_) =>
    case Done(sp, rs1) =>
      match GenerateStrongPrimeAsWritten(rs1, o, len, tries, walk)
      case Exhausted =>
      case Panicked(_) =>
      case Done(sq, rs2) =>
        KeyExists(o, len, sp.p, sq.p);
  }

  // ---------------------------------------------------------------------
  // Encryption and decryption

  /** paillier.rs:58-62 for a given randomizer r: (m*n + 1) * (r^n mod n^2),
      reduced by Rust's truncating `%` (a negative m can give a negative
      ciphertext). */
  function EncryptWith(pk: PublicKey, m: int, r: nat): (c: int)
    requires pk.n > 0 && pk.n2 > 0
    ensures -(pk.n2 as int) < c < pk.n2
    ensures m >= 0 ==> c >= 0
    ensures c % pk.n2 == ((1 + m * pk.n) * Pow(r, pk.n)) % pk.n2
  {
    var rn := PowMod(r, pk.n, pk.n2);
    var gm := m * pk.n + 1;
    MulMod(gm, Pow(r, pk.n), pk.n2);
    MulMod(gm, rn, pk.n2);
    ModMod(Pow(r, pk.n), pk.n2);
    if m >= 0 then
      MulNonNegative(m, pk.n);
      MulNonNegative(gm, rn);
      TRem(gm * rn, pk.n2)
    else TRem(gm * rn, pk.n2)
  }

  /** The shortcut 1 + m*n of paillier.rs:59 encrypts exactly like the
      textbook g^m of the commented-out line 60, because
      (1 + n)^m == 1 + m*n (mod n^2). */
  lemma ShortcutMatchesTextbook(pk: PublicKey, m: nat, r: nat)
    requires pk.n > 0 && pk.n2 == pk.n * pk.n && pk.g == pk.n + 1
    ensures EncryptWith(pk, m, r) % pk.n2 == (PowMod(pk.g, m, pk.n2) * PowMod(r, pk.n, pk.n2)) % pk.n2
  {
    var n, n2 := pk.n, pk.n2;
    OnePlusMultiplePow(1, n, m);
    assert 1 + n * 1 == pk.g && 1 + m * 1 * n == 1 + m * n;
    MulMod(1 + m * n, Pow(r, n), n2);
    MulMod(Pow(pk.g, m), Pow(r, n), n2);
  }

  /** Paillier::encrypt: draw r below n coprime to n (paillier.rs:53-56),
      then encrypt. */
  function Encrypt(rs: RandState, pk: PublicKey, m: int, tries: nat): (res: Outcome<int>)
    requires pk.n > 0 && pk.n2 > 0
    ensures res.Done? || res.Exhausted?
    ensures res.Done? ==> exists r: nat :: r < pk.n && Gcd(r, pk.n) == 1 && res.value == EncryptWith(pk, m, r)
  {
    match UrandomCoprime(rs, pk.n, tries)
    case Exhausted => Exhausted
    case Done(r, rest) => Done(EncryptWith(pk, m, r), rest)
  }

  /** The L function of paillier.rs:67, (u - 1)/n with Rust's truncating
      division: exact whenever u == 1 (mod n). */
  function L(u: int, n: nat): (r: int)
    requires n > 0
    ensures (u - 1) % n == 0 ==> r * n == u - 1
    ensures u >= 1 ==> r >= 0
    ensures n >= 2 && u >= 0 ==> r >= 0
  {
    if (u - 1) % n == 0 then
      TDivExact(u - 1, n);
      TDiv(u - 1, n)
    else TDiv(u - 1, n)
  }

  /** The fast L of tests.rs:155-161: when u - 1 = k*n with 0 <= k < 2^len
      and ninv inverts n modulo 2^len, ((u - 1) * ninv) mod 2^len is k. */
  lemma FastL(u: int, n: nat, len: nat, ninv: int)
    requires n > 0 && (n * ninv) % Pow2(len) == 1 && (u - 1) % n == 0
    requires 0 <= L(u, n) < Pow2(len)
    ensures ((u - 1) * ninv) % Pow2(len) == L(u, n)
  {
    var k, m := L(u, n), Pow2(len);
    assert (u - 1) * ninv == k * (n * ninv);
    MulMod(k, n * ninv, m);
    ModSmall(k, m);
    MulModLeft(k, 1, m);
  }

  /** Paillier::decrypt: L(c^lambda mod n^2) * mu mod n. */
  function Decrypt(pk: PublicKey, sk: SecretKey, c: int): (m: int)
    requires pk.n > 0 && pk.n2 > 0
    ensures 0 <= m < pk.n
  {
    var cl := PowMod(c, sk.lambda, pk.n2);
    var lc := L(cl, pk.n);
    if pk.n == 1 then TRem(lc * sk.mu, pk.n)
    else
      MulNonNegative(lc, sk.mu);
      TRem(lc * sk.mu, pk.n)
  }

  /** Paillier::add_cipher: the product of two ciphertexts mod n^2. */
  function AddCipher(pk: PublicKey, c1: int, c2: int): (c: int)
    requires pk.n2 > 0
    ensures c1 * c2 >= 0 ==> 0 <= c < pk.n2
    ensures c % pk.n2 == (c1 * c2) % pk.n2
  {
    TRem(c1 * c2, pk.n2)
  }

  /** Paillier::add_const: add_cipher with g^k mod n^2. */
  function AddConst(pk: PublicKey, c: int, k: nat): (r: int)
    requires pk.n2 > 0
    ensures c >= 0 ==> 0 <= r < pk.n2
    ensures r % pk.n2 == (c * Pow(pk.g, k)) % pk.n2
  {
    MulMod(c, Pow(pk.g, k), pk.n2);
    MulMod(c, PowMod(pk.g, k, pk.n2), pk.n2);
    ModMod(Pow(pk.g, k), pk.n2);
    if c >= 0 then
      assert c * PowMod(pk.g, k, pk.n2) >= 0;
      AddCipher(pk, c, PowMod(pk.g, k, pk.n2))
    else AddCipher(pk, c, PowMod(pk.g, k, pk.n2))
  }

  /** Paillier::mul_const: c^k mod n^2. */
  function MulConst(pk: PublicKey, c: int, k: nat): (r: int)
    requires pk.n2 > 0
    ensures 0 <= r < pk.n2
    ensures r % pk.n2 == Pow(c, k) % pk.n2
  {
    ModMod(Pow(c, k), pk.n2);
    PowMod(c, k, pk.n2)
  }

  // ---------------------------------------------------------------------
  // Correctness

  /** c encrypts m with randomizer s: c == (1 + m*n) * s^n (mod n^2), s a
      unit modulo both primes of a valid key. */
  predicate Encrypts(kp: KeyPair, p: nat, q: nat, c: int, m: int, s: int)
  {
    && ValidKey(kp, p, q) && s % p != 0 && s % q != 0
    && c % kp.pk.n2 == ((1 + m * kp.pk.n) * Pow(s, kp.pk.n)) % kp.pk.n2
  }

  /** Decryption returns the plaintext modulo n of every ciphertext of that
      shape. */
  lemma DecryptCorrect(kp: KeyPair, p: nat, q: nat, c: int, m: int, s: int)
    requires Encrypts(kp, p, q, c, m, s)
    ensures Decrypt(kp.pk, kp.sk, c) == m % kp.pk.n
  {
    var n, n2, lambda, mu := kp.pk.n, kp.pk.n2, kp.sk.lambda, kp.sk.mu;
    MulLe(2, 2, p, q);
    RandomizerVanishes(s, p, q, n, lambda);
    UnmaskPower(c, m, n, n2, lambda, Pow(s, n));
    var t := (lambda * m) % n;
    LiftedResidue(lambda * m, n);
    var cl := PowMod(c, lambda, n2);
    assert cl == 1 + t * n;
    assert L(cl, n) == t by {
      DivModUnique(t * n, t, 0, n);
    }
    MulNonNegative(t, mu);
    Unmask(lambda, mu, m, n);
  }

  /** The randomizer's n-th power raised to lambda is 1 modulo n^2, by
      CarmichaelSquare. */
  lemma RandomizerVanishes(s: int, p: nat, q: nat, n: nat, lambda: nat)
    requires IsPrime(p) && IsPrime(q) && p != q && s % p != 0 && s % q != 0
    requires n == p * q && lambda == (p - 1) * (q - 1)
    ensures Pow(Pow(s, n), lambda) % (n * n) == 1
  {
    CarmichaelSquare(s, p, q, n, lambda);
    PowMul(s, n, lambda);
  }

  /** If c == (1 + m*n) * y (mod n^2) and y^lambda == 1 (mod n^2), then
      c^lambda == 1 + lambda*m*n (mod n^2). */
  lemma UnmaskPower(c: int, m: int, n: int, n2: int, lambda: nat, y: int)
    requires n > 0 && n2 == n * n
    requires c % n2 == ((1 + m * n) * y) % n2 && Pow(y, lambda) % n2 == 1
    ensures Pow(c, lambda) % n2 == (1 + lambda * m * n) % n2
  {
    var x := 1 + m * n;
    var px, py := Pow(x, lambda), Pow(y, lambda);
    assert Pow(c, lambda) % n2 == (px * py) % n2 by {
      PowCongruent(c, x * y, lambda, n2);
      PowProduct(x, y, lambda);
    }
    assert n2 > 1;
    assert (py * px) % n2 == px % n2 by {
      ModSmall(1, n2);
      MulCongruent(py, 1, px, n2);
    }
    assert px % n2 == (1 + lambda * m * n) % n2 by {
      OnePlusMultiplePow(m, n, lambda);
    }
    assert py * px == px * py;
  }

  /** 1 + v*n reduced modulo n^2 is 1 + (v mod n)*n. */
  lemma LiftedResidue(v: int, n: nat)
    requires n >= 2
    ensures (1 + v * n) % (n * n) == 1 + (v % n) * n
  {
    var t, k := v % n, v / n;
    assert v == k * n + t;
    assert v * n == t * n + k * (n * n);
    ModAddMultiple(1 + t * n, k, n * n);
    MulLe(t, n, n - 1, n);
    assert (n - 1) * n == n * n - n;
    MulNonNegative(t, n);
    ModSmall(1 + t * n, n * n);
  }

  /** ((lambda*m mod n) * mu) mod n == m mod n when lambda*mu == 1 (mod n). */
  lemma Unmask(lambda: int, mu: int, m: int, n: nat)
    requires n >= 2 && (lambda * mu) % n == 1
    ensures (((lambda * m) % n) * mu) % n == m % n
  {
    MulModLeft(lambda * m, mu, n);
    assert (lambda * m) * mu == (lambda * mu) * m;
    MulModLeft(lambda * mu, m, n);
  }

  /** A ciphertext built from a randomizer coprime to n has that shape. */
  lemma EncryptWithEncrypts(kp: KeyPair, p: nat, q: nat, m: int, r: nat)
    requires ValidKey(kp, p, q) && Gcd(r, kp.pk.n) == 1
    ensures Encrypts(kp, p, q, EncryptWith(kp.pk, m, r), m, r)
  {
    MulLe(2, 2, p, q);
    assert kp.pk.n == q * p;
    ModOfMultiple(q, p);
    ModOfMultiple(p, q);
    CoprimeNotDivisible(r, kp.pk.n, p);
    CoprimeNotDivisible(r, kp.pk.n, q);
  }

  /** Round trip (tests.rs pai_enc_dec): decrypt(encrypt(m)) == m mod n. */
  lemma RoundTrip(kp: KeyPair, p: nat, q: nat, rs: RandState, m: int, tries: nat)
    requires ValidKey(kp, p, q)
    ensures var res := Encrypt(rs, kp.pk, m, tries);
      res.Done? ==> Decrypt(kp.pk, kp.sk, res.value) == m % kp.pk.n
  {
    MulLe(2, 2, p, q);
    var res := Encrypt(rs, kp.pk, m, tries);
    if res.Done? {
      var r: nat :| r < kp.pk.n && Gcd(r, kp.pk.n) == 1 && res.value == EncryptWith(kp.pk, m, r);
      EncryptWithEncrypts(kp, p, q, m, r);
      DecryptCorrect(kp, p, q, res.value, m, r);
    }
  }

  /** add_cipher adds plaintexts: the randomizers multiply. */
  lemma AddCipherEncrypts(kp: KeyPair, p: nat, q: nat, c1: int, m1: int, s1: int, c2: int, m2: int, s2: int)
    requires Encrypts(kp, p, q, c1, m1, s1) && Encrypts(kp, p, q, c2, m2, s2)
    ensures Encrypts(kp, p, q, AddCipher(kp.pk, c1, c2), m1 + m2, s1 * s2)
  {
    var n := kp.pk.n;
    MulLe(2, 2, p, q);
    ProductNotDivisible(s1, s2, p);
    ProductNotDivisible(s1, s2, q);
    PowProduct(s1, s2, n);
    CiphertextProduct(c1, m1, Pow(s1, n), c2, m2, Pow(s2, n), n, kp.pk.n2);
  }

  /** (1 + m1*n) * u times (1 + m2*n) * v is (1 + (m1 + m2)*n) * (u*v)
      modulo n^2: the cross term m1*m2*n^2 vanishes. */
  lemma CiphertextProduct(c1: int, m1: int, u: int, c2: int, m2: int, v: int, n: int, n2: int)
    requires n > 0 && n2 == n * n
    requires c1 % n2 == ((1 + m1 * n) * u) % n2 && c2 % n2 == ((1 + m2 * n) * v) % n2
    ensures (c1 * c2) % n2 == ((1 + (m1 + m2) * n) * (u * v)) % n2
  {
    var a1, a2 := (1 + m1 * n) * u, (1 + m2 * n) * v;
    var x, y := (1 + m1 * n) * (1 + m2 * n), 1 + (m1 + m2) * n;
    assert (c1 * c2) % n2 == (a1 * a2) % n2 by {
      MulMod(c1, c2, n2);
      MulMod(a1, a2, n2);
    }
    assert a1 * a2 == x * (u * v);
    assert x % n2 == y % n2 by {
      assert x == y + (m1 * m2) * n2;
      ModAddMultiple(y, m1 * m2, n2);
    }
    MulCongruent(x, y, u * v, n2);
  }

  /** g^k mod n^2 is an encryption of k with randomizer 1. */
  lemma GeneratorPowerEncrypts(kp: KeyPair, p: nat, q: nat, k: nat)
    requires ValidKey(kp, p, q)
    ensures Encrypts(kp, p, q, PowMod(kp.pk.g, k, kp.pk.n2), k, 1)
  {
    var n, n2 := kp.pk.n, kp.pk.n2;
    MulLe(2, 2, p, q);
    OnePlusMultiplePow(1, n, k);
    assert 1 + n * 1 == kp.pk.g && 1 + k * 1 * n == 1 + k * n;
    PowOfOne(n);
    ModMod(Pow(kp.pk.g, k), n2);
    ModSmall(1, p);
    ModSmall(1, q);
  }

  /** add_const adds the constant to the plaintext, keeping the randomizer. */
  lemma AddConstEncrypts(kp: KeyPair, p: nat, q: nat, c: int, m: int, s: int, k: nat)
    requires Encrypts(kp, p, q, c, m, s)
    ensures Encrypts(kp, p, q, AddConst(kp.pk, c, k), m + k, s)
  {
    var gk := PowMod(kp.pk.g, k, kp.pk.n2);
    GeneratorPowerEncrypts(kp, p, q, k);
    AddCipherEncrypts(kp, p, q, c, m, s, gk, k, 1);
    assert s * 1 == s;
  }

  /** mul_const multiplies the plaintext by k; the randomizer becomes s^k. */
  lemma MulConstEncrypts(kp: KeyPair, p: nat, q: nat, c: int, m: int, s: int, k: nat)
    requires Encrypts(kp, p, q, c, m, s)
    ensures Encrypts(kp, p, q, MulConst(kp.pk, c, k), m * k, Pow(s, k))
  {
    var n, n2 := kp.pk.n, kp.pk.n2;
    MulLe(2, 2, p, q);
    PowNotDivisible(s, k, p);
    PowNotDivisible(s, k, q);
    var x, y := 1 + m * n, Pow(s, n);
    PowCongruent(c, x * y, k, n2);
    PowProduct(x, y, k);
    OnePlusMultiplePow(m, n, k);
    assert 1 + k * m * n == 1 + (m * k) * n;
    PowMul(s, n, k);
    PowMul(s, k, n);
    assert n * k == k * n;
    MulCongruent(Pow(x, k), 1 + (m * k) * n, Pow(y, k), n2);
  }

  /** Homomorphic round trips (tests.rs pai_add_cipher, pai_add_const,
      pai_mul_const) on the outputs of encrypt. */
  lemma HomomorphicRoundTrips(kp: KeyPair, p: nat, q: nat, rs1: RandState, m1: int, rs2: RandState, m2: int, k: nat, tries: nat)
    requires ValidKey(kp, p, q)
    ensures var e1, e2 := Encrypt(rs1, kp.pk, m1, tries), Encrypt(rs2, kp.pk, m2, tries);
      e1.Done? && e2.Done? ==>
        && Decrypt(kp.pk, kp.sk, AddCipher(kp.pk, e1.value, e2.value)) == (m1 + m2) % kp.pk.n
        && Decrypt(kp.pk, kp.sk, AddConst(kp.pk, e1.value, k)) == (m1 + k) % kp.pk.n
        && Decrypt(kp.pk, kp.sk, MulConst(kp.pk, e1.value, k)) == (m1 * k) % kp.pk.n
  {
    MulLe(2, 2, p, q);
    var e1, e2 := Encrypt(rs1, kp.pk, m1, tries), Encrypt(rs2, kp.pk, m2, tries);
    if e1.Done? && e2.Done? {
      var r1: nat :| r1 < kp.pk.n && Gcd(r1, kp.pk.n) == 1 && e1.value == EncryptWith(kp.pk, m1, r1);
      var r2: nat :| r2 < kp.pk.n && Gcd(r2, kp.pk.n) == 1 && e2.value == EncryptWith(kp.pk, m2, r2);
      EncryptWithEncrypts(kp, p, q, m1, r1);
      EncryptWithEncrypts(kp, p, q, m2, r2);
      AddCipherEncrypts(kp, p, q, e1.value, m1, r1, e2.value, m2, r2);
      DecryptCorrect(kp, p, q, AddCipher(kp.pk, e1.value, e2.value), m1 + m2, r1 * r2);
      AddConstEncrypts(kp, p, q, e1.value, m1, r1, k);
      DecryptCorrect(kp, p, q, AddConst(kp.pk, e1.value, k), m1 + k, r1);
      MulConstEncrypts(kp, p, q, e1.value, m1, r1, k);
      DecryptCorrect(kp, p, q, MulConst(kp.pk, e1.value, k), m1 * k, Pow(r1, k));
    }
  }

  // ---------------------------------------------------------------------
  // The repeated-prime finding

  /** As written, generate_key(8) on zero draws takes p = q = 13: both
      strong primes come from pp = nextprime(2) = 3 and a = 4. */
  lemma AsWrittenKeyRepeatsPrime(o: Oracle)
    requires o.nextPrime(2) == 3 && o.probablyPrime(13)
    ensures GenerateKeyAsWritten(Zeros(), o, 8, 1, 1)
         == Done(KeyPair(PublicKey(169, 28561, 170), SecretKey(144, 27)), RandState(Zeros().stream, 4))
  {
    var z := Zeros();
    var rs1, rs2 := RandState(z.stream, 2), RandState(z.stream, 4);
    var sp := StrongPrime(13, 2, 3, 4, 0);
    StrongPrimeOf13(o, z, StepByMultiplier);
    assert GenerateStrongPrimeAsWritten(z, o, 4, 1, 1) == Done(sp, rs1);
    StrongPrimeOf13(o, rs1, StepByMultiplier);
    assert GenerateStrongPrimeAsWritten(rs1, o, 4, 1, 1) == Done(sp, rs2);
    RepeatedPrimeKey();
  }

  /** The key of p = q = 13: n = 169, lambda = 144 and mu = 27. */
  lemma RepeatedPrimeKey()
    ensures DeriveKey(13, 13) == Some(KeyPair(PublicKey(169, 28561, 170), SecretKey(144, 27)))
  {
    assert ExtGcd(144, 169) == (27, -23);
    assert Gcd(144, 169) == 1;
  }

  /** On two zero draws generate_strong_prime(4) returns 13, whichever way
      it walks: the first candidate 3*4 + 1 is already prime. */
  lemma StrongPrimeOf13(o: Oracle, rs: RandState, rule: StepRule)
    requires o.nextPrime(2) == 3 && o.probablyPrime(13)
    requires rs.stream(rs.drawn) == 0 && rs.stream(rs.drawn + 1) == 0
    ensures StrongPrimeWith(rs, o, 4, 1, 1, rule) == Done(StrongPrime(13, 2, 3, 4, 0), RandState(rs.stream, rs.drawn + 2))
  {
    assert Pow2(1) == 2 && Pow2(2) == 4;
    assert UrandomValue(0, 2) == 2 by {
      assert TestBit(0, 1) == false;
    }
    assert BitLength(2) == 2 && BitLength(3) == 2;
    assert GeneratePrime(rs, o, 2, 1) == Done(3, Advance(rs));
    assert UrandomValue(0, 3) == 4 by {
      assert TestBit(0, 2) == false;
    }
    assert BitLength(4) == 3;
    assert GenerateUrandom(Advance(rs), 3) == Done(4, RandState(rs.stream, rs.drawn + 2));
    assert BitLength(13) == 4;
    assert Walk(o, 13, StepSize(rule, 3, 4), 1) == Some((13, 0));
  }

  /** With that key, encrypting 0 under the randomizer 2 (coprime to n)
      decrypts to 130: the round trip fails once p == q. */
  lemma RepeatedPrimeBreaksDecryption()
    ensures Gcd(2, 169) == 1
    ensures EncryptWith(PublicKey(169, 28561, 170), 0, 2) == 20191
    ensures Decrypt(PublicKey(169, 28561, 170), SecretKey(144, 27), 20191) == 130
  {
    RandomizerPower();
    PowModBySquaringCorrect(2, 169, 28561);
    DecryptionPower();
    PowModBySquaringCorrect(20191, 144, 28561);
    assert L(21971, 169) == 130;
  }

  /** 2^169 mod 169^2, by square-and-multiply. */
  lemma RandomizerPower()
    ensures PowModBySquaring(2, 169, 28561) == 20191
  {
    var m := 28561;
    assert PowModBySquaring(2, 5, m) == 32;
    assert PowModBySquaring(2, 10, m) == 1024;
    assert PowModBySquaring(2, 20, m) == 20380;
    assert PowModBySquaring(2, 21, m) == 12199;
    assert PowModBySquaring(2, 42, m) == 12791;
    assert PowModBySquaring(2, 84, m) == 12273;
    assert PowModBySquaring(2, 168, m) == 24376;
  }

  /** 20191^144 mod 169^2, by square-and-multiply. */
  lemma DecryptionPower()
    ensures PowModBySquaring(20191, 144, 28561) == 21971
  {
    var m := 28561;
    assert PowModBySquaring(20191, 2, m) == 25328;
    assert PowModBySquaring(20191, 4, m) == 27524;
    assert PowModBySquaring(20191, 8, m) == 18612;
    assert PowModBySquaring(20191, 9, m) == 17815;
    assert PowModBySquaring(20191, 18, m) == 4393;
    assert PowModBySquaring(20191, 36, m) == 19774;
    assert PowModBySquaring(20191, 72, m) == 10986;
  }
}

=== FILE: primes.dfy ===
/** Divisibility, primality, greatest common divisors and modular inverses:
    the exact number theory behind GMP's mpz_gcd and mpz_invert, and the
    facts about primes (Euclid's lemma, inverses modulo a prime) that the
    correctness of both cryptosystems rests on. */
module Primes {
  import opened Arith

  datatype Option<T> = None | Some(value: T)

  /** p is prime: at least 2, and no d with 2 <= d < p divides it. */
  predicate IsPrime(p: int)
  {
    p >= 2 && forall d :: 2 <= d < p ==> p % d != 0
  }

  /** mpz_gcd on non-negative arguments, by Euclid's algorithm. */
  function Gcd(a: nat, b: nat): nat
    decreases b
  {
    if b == 0 then a else Gcd(b, a % b)
  }

  /** Extended Euclid: Bezout coefficients (s, t) with s*a + t*b == Gcd(a, b). */
  function ExtGcd(a: nat, b: nat): (r: (int, int))
    decreases b
    ensures r.0 * a + r.1 * b == Gcd(a, b)
  {
    if b == 0 then (1, 0)
    else
      var (s, t) := ExtGcd(b, a % b);
      BezoutStep(a, b, a / b, a % b, s, t);
      (t, s - t * (a / b))
  }

  /** Back-substitution in the extended Euclidean algorithm. */
  lemma BezoutStep(a: int, b: int, q: int, r: int, s: int, t: int)
    requires a == q * b + r
    ensures s * b + t * r == t * a + (s - t * q) * b
  {
    assert t * a == t * (q * b) + t * r;
    assert (s - t * q) * b == s * b - t * (q * b);
  }

  /** mpz_invert: the inverse of a modulo m, present exactly when a and m
      are coprime. */
  function Invert(a: int, m: int): (r: Option<nat>)
    requires m > 1
    ensures r.Some? <==> Gcd(a % m, m) == 1
    ensures r.Some? ==> r.value < m && (a * r.value) % m == 1
  {
    var (s, t) := ExtGcd(a % m, m);
    if Gcd(a % m, m) == 1 then
      InverseFromBezout(a, s, t, m);
      Some(s % m)
    else None
  }

  lemma InverseFromBezout(a: int, s: int, t: int, m: int)
    requires m > 1 && s * (a % m) + t * m == 1
    ensures (a * (s % m)) % m == 1
  {
    calc {
      (a * (s % m)) % m;
      { MulMod(a, s % m, m); ModMod(s, m); MulMod(a, s, m); }
      (a * s) % m;
      { MulModLeft(a, s, m); }
      ((a % m) * s) % m;
      { assert (a % m) * s == 1 + (-t) * m; ModAddMultiple(1, -t, m); }
      1 % m;
      { ModSmall(1, m); }
      1;
    }
  }

  // ---------------------------------------------------------------------
  // Divisibility

  /** A linear combination of multiples of d is a multiple of d. */
  lemma DividesLinear(a: int, b: int, k: int, d: int)
    requires d > 0 && a % d == 0 && b % d == 0
    ensures (a + k * b) % d == 0
  {
    assert a == (a / d) * d;
    assert b == (b / d) * d;
    assert a + k * b == (a / d + k * (b / d)) * d;
    ModOfMultiple(a / d + k * (b / d), d);
  }

  lemma DividesProduct(a: int, b: int, d: int)
    requires d > 0 && a % d == 0
    ensures (a * b) % d == 0
  {
    MulModLeft(a, b, d);
  }

  /** A positive multiple of d is at least d. */
  lemma DivisorAtMost(d: int, a: int)
    requires d > 0 && a > 0 && a % d == 0
    ensures d <= a
  {
    if a < d {
      ModSmall(a, d);
    }
  }

  // ---------------------------------------------------------------------
  // Greatest common divisor

  lemma {:induction false} GcdDivides(a: nat, b: nat)
    ensures Gcd(a, b) == 0 <==> a == 0 && b == 0
    ensures Gcd(a, b) > 0 ==> a % Gcd(a, b) == 0 && b % Gcd(a, b) == 0
    decreases b
  {
    if b > 0 {
      GcdDivides(b, a % b);
      var g := Gcd(a, b);
      assert a == (a % b) + (a / b) * b;
      DividesLinear(a % b, b, a / b, g);
    }
  }

  /** Every common divisor of a and b divides their gcd. */
  lemma {:induction false} GcdGreatest(a: nat, b: nat, d: int)
    requires d > 0 && a % d == 0 && b % d == 0
    ensures Gcd(a, b) % d == 0
    decreases b
  {
    if b > 0 {
      assert a % b == a + (-(a / b)) * b;
      DividesLinear(a, b, -(a / b), d);
      GcdGreatest(b, a % b, d);
    }
  }

  /** A prime factor of n cannot divide a value coprime to n. */
  lemma CoprimeNotDivisible(y: nat, n: nat, p: int)
    requires Gcd(y, n) == 1 && p >= 2 && n % p == 0
    ensures y % p != 0
  {
    if y % p == 0 {
      GcdGreatest(y, n, p);
      ModSmall(1, p);
    }
  }

  /** A value with an inverse modulo m is coprime to m. */
  lemma InverseImpliesCoprime(a: int, s: int, m: int)
    requires m > 1 && (a * s) % m == 1
    ensures Gcd(a % m, m) == 1
  {
    var g := Gcd(a % m, m);
    GcdDivides(a % m, m);
    assert (a * s) % g == 0 by {
      assert a == a % m + (a / m) * m;
      DividesLinear(a % m, m, a / m, g);
      DividesProduct(a, s, g);
    }
    var k := (a * s) / m;
    assert 1 == a * s + (-k) * m;
    DividesLinear(a * s, m, -k, g);
    DivisorAtMost(g, 1);
  }

  /** Inverses modulo m1 and modulo m2 combine into an inverse modulo m1*m2:
      (1 - a*s1)(1 - a*s2) is a multiple of m1*m2. */
  lemma InverseModProduct(a: int, s1: int, s2: int, m1: int, m2: int)
    requires m1 > 0 && m2 > 0 && m1 * m2 > 1 && (a * s1) % m1 == 1 && (a * s2) % m2 == 1
    ensures (a * (s1 + s2 - a * s1 * s2)) % (m1 * m2) == 1
  {
    var k1, k2 := (a * s1) / m1, (a * s2) / m2;
    assert a * s1 == 1 + k1 * m1;
    assert a * s2 == 1 + k2 * m2;
    assert (1 - a * s1) * (1 - a * s2) == (k1 * k2) * (m1 * m2);
    assert a * (s1 + s2 - a * s1 * s2) == 1 + (-(k1 * k2)) * (m1 * m2) by {
      assert (1 - a * s1) * (1 - a * s2) == 1 - a * (s1 + s2 - a * s1 * s2);
    }
    ModAddMultiple(1, -(k1 * k2), m1 * m2);
    ModSmall(1, m1 * m2);
  }

  // ---------------------------------------------------------------------
  // Primes

  /** The only positive divisors of a prime are 1 and itself. */
  lemma PrimeDivisor(p: int, d: int)
    requires IsPrime(p) && d > 0 && p % d == 0
    ensures d == 1 || d == p
  {
    DivisorAtMost(d, p);
  }

  /** A value not divisible by the prime p has an inverse modulo p. */
  lemma InverseModPrime(a: int, p: int) returns (s: int)
    requires IsPrime(p) && a % p != 0
    ensures (a * s) % p == 1
  {
    var r := a % p;
    GcdDivides(r, p);
    var g := Gcd(r, p);
    PrimeDivisor(p, g);
    DivisorAtMost(g, r);
    var (s', t) := ExtGcd(r, p);
    InverseFromBezout(a, s', t, p);
    s := s' % p;
  }

  /** No d with lo <= d <= hi divides p: a bounded trial division. */
  function NoDivisorIn(p: nat, lo: nat, hi: nat): (r: bool)
    requires lo >= 1
    decreases hi + 1 - lo
    ensures r ==> forall d :: lo <= d <= hi ==> p % d != 0
  {
    lo > hi || (p % lo != 0 && NoDivisorIn(p, lo + 1, hi))
  }

  /** Trial division up to the square root decides primality. */
  lemma PrimeByTrialDivision(p: nat, k: nat)
    requires p >= 2 && (k + 1) * (k + 1) > p && NoDivisorIn(p, 2, k)
    ensures IsPrime(p)
  {
    forall d | 2 <= d < p
      ensures p % d != 0
    {
      if d > k {
        NoLargeDivisor(p, k, d);
      }
    }
  }

  /** A divisor d > k of p would pair with a cofactor that is either a small
      divisor or makes p at least (k + 1)^2. */
  lemma NoLargeDivisor(p: nat, k: nat, d: nat)
    requires p >= 2 && (k + 1) * (k + 1) > p && NoDivisorIn(p, 2, k) && k < d < p
    ensures p % d != 0
  {
    if p % d == 0 {
      var e := p / d;
      assert p == d * e;
      if 2 <= e <= k {
        assert p == e * d;
        ModOfMultiple(d, e);
      } else if e > k {
        MulLe(k + 1, k + 1, d, e);
      }
    }
  }

  lemma MulLe(a: nat, b: nat, c: nat, d: nat)
    requires a <= c && b <= d
    ensures a * b <= c * d
  {
    assert a * b <= c * b;
    assert c * b <= c * d;
  }

  /** Euclid's lemma: a prime dividing a product divides one of the factors. */
  lemma Euclid(a: int, b: int, p: int)
    requires IsPrime(p) && (a * b) % p == 0
    ensures a % p == 0 || b % p == 0
  {
    if a % p != 0 {
      var s := InverseModPrime(a, p);
      CancelUnit(a, s, b, p);
    }
  }

  /** A unit a modulo m cancels: m | a*b implies m | b. */
  lemma CancelUnit(a: int, s: int, b: int, m: int)
    requires m > 1 && (a * s) % m == 1 && (a * b) % m == 0
    ensures b % m == 0
  {
    ModSmall(1, m);
    assert (a * s * b) % m == b % m by {
      MulCongruent(a * s, 1, b, m);
    }
    assert (a * s * b) % m == 0 by {
      assert a * s * b == (a * b) * s;
      MulModLeft(a * b, s, m);
    }
  }

  /** The product of two values not divisible by a prime is not divisible by it. */
  lemma ProductNotDivisible(a: int, b: int, p: int)
    requires IsPrime(p) && a % p != 0 && b % p != 0
    ensures (a * b) % p != 0
  {
    if (a * b) % p == 0 {
      Euclid(a, b, p);
    }
  }

  lemma {:induction false} PowNotDivisible(a: int, e: nat, p: int)
    requires IsPrime(p) && a % p != 0
    ensures Pow(a, e) % p != 0
  {
    if e == 0 {
      ModSmall(1, p);
    } else {
      PowNotDivisible(a, e - 1, p);
      ProductNotDivisible(a, Pow(a, e - 1), p);
    }
  }

  /** Two distinct primes are coprime: some s, t give s*p + t*q == 1. */
  lemma DistinctPrimesBezout(p: int, q: int) returns (s: int, t: int)
    requires IsPrime(p) && IsPrime(q) && p != q
    ensures s * p + t * q == 1
  {
    GcdDivides(p, q);
    var g := Gcd(p, q);
    PrimeDivisor(p, g);
    PrimeDivisor(q, g);
    s, t := ExtGcd(p, q).0, ExtGcd(p, q).1;
  }

  /** If p^2 and q^2 both divide x, for distinct primes p and q, so does (p*q)^2. */
  lemma SquaresDivide(x: int, p: int, q: int)
    requires IsPrime(p) && IsPrime(q) && p != q
    requires x % (p * p) == 0 && x % (q * q) == 0
    ensures x % ((p * q) * (p * q)) == 0
  {
    var s, t := DistinctPrimesBezout(p, q);
    var a, b := SquaresBezout(s, t, p, q);
    assert (p * q) * (p * q) == (p * p) * (q * q);
    CoprimeFactorsDivide(x, p * p, q * q, a, b);
  }

  /** When a*u + b*v == 1, a value divisible by both u and v is divisible by u*v. */
  lemma CoprimeFactorsDivide(x: int, u: int, v: int, a: int, b: int)
    requires u > 0 && v > 0 && a * u + b * v == 1
    requires x % u == 0 && x % v == 0
    ensures x % (u * v) == 0
  {
    var x1, x2 := x / v, x / u;
    assert x == x1 * v;
    assert x == x2 * u;
    calc {
      x;
      (a * u + b * v) * x;
      a * (u * x) + b * (v * x);
      a * (u * (x1 * v)) + b * (v * (x2 * u));
      (a * x1 + b * x2) * (u * v);
    }
    ModOfMultiple(a * x1 + b * x2, u * v);
  }

  /** From s*p + t*q == 1, cubing both sides yields a*p^2 + b*q^2 == 1. */
  lemma SquaresBezout(s: int, t: int, p: int, q: int) returns (a: int, b: int)
    requires s * p + t * q == 1
    ensures a * (p * p) + b * (q * q) == 1
  {
    var u, v := s * p, t * q;
    assert (u + v) * (u + v) * (u + v) == u * u * (u + 3 * v) + v * v * (3 * u + v);
    assert u * u == (s * s) * (p * p);
    assert v * v == (t * t) * (q * q);
    a := (s * s) * (u + 3 * v);
    b := (t * t) * (3 * u + v);
  }
}

=== FILE: residues.dfy ===
/** Quadratic residues and the Legendre symbol that Goldwasser-Micali
    decryption evaluates with mpz_legendre. The symbol is defined directly:
    0 when p divides a, 1 when a is a nonzero square modulo p, -1 otherwise.
    The one algebraic fact the scheme needs is that multiplying by a nonzero
    square never changes the symbol (SquareFactor below); no general
    multiplicativity is assumed. */
module Residues {
  import opened Arith
  import opened Primes

  /** a is a square modulo p: some z in [0, p) has z*z congruent to a. */
  predicate IsSquareMod(a: int, p: int)
    requires p > 0
  {
    exists z :: 0 <= z < p && (z * z) % p == a % p
  }

  /** The Legendre symbol of a with respect to p (mpz_legendre for an odd prime p). */
  function Legendre(a: int, p: int): (r: int)
    requires p > 0
    ensures r == -1 || r == 0 || r == 1
    ensures r == 0 <==> a % p == 0
  {
    if a % p == 0 then 0 else if IsSquareMod(a, p) then 1 else -1
  }

  /** Any u whose square is congruent to v witnesses that v is a square. */
  lemma SquareWitness(u: int, v: int, p: int)
    requires p > 0 && (u * u) % p == v % p
    ensures IsSquareMod(v, p)
  {
    var z := u % p;
    MulMod(u, u, p);
    assert (z * z) % p == v % p;
  }

  /** The symbol depends only on the residue of a modulo p, and so is
      unchanged by reducing a modulo any multiple of p. */
  lemma LegendreReduce(a: int, n: int, p: int)
    requires p > 0 && n > 0 && n % p == 0
    ensures Legendre(a % n, p) == Legendre(a, p)
  {
    var k := n / p;
    assert n == p * k;
    ModOfModMultiple(a, p, k);
  }

  /** 1 is a nonzero square modulo every p >= 2. */
  lemma LegendreOfOne(p: int)
    requires p >= 2
    ensures Legendre(1, p) == 1
  {
    ModSmall(1, p);
    SquareWitness(1, 1, p);
  }

  /** Multiplying by the square of a value prime to p leaves the symbol unchanged. */
  lemma SquareFactor(z: int, a: int, p: int)
    requires IsPrime(p) && z % p != 0
    ensures Legendre(z * z * a, p) == Legendre(a, p)
  {
    var za := z * z * a;
    assert za % p == 0 <==> a % p == 0 by {
      if a % p == 0 {
        MulModLeft(a, z * z, p);
        assert z * z * a == a * (z * z);
      } else {
        ProductNotDivisible(z, z, p);
        ProductNotDivisible(z * z, a, p);
      }
    }
    assert IsSquareMod(za, p) <==> IsSquareMod(a, p) by {
      SquareTimesSquare(z, a, p);
      SquareDividedOut(z, a, p);
    }
    SameSymbol(za, a, p);
  }

  /** The symbol is determined by divisibility and squareness. */
  lemma SameSymbol(x: int, y: int, p: int)
    requires p > 0 && (x % p == 0 <==> y % p == 0) && (IsSquareMod(x, p) <==> IsSquareMod(y, p))
    ensures Legendre(x, p) == Legendre(y, p)
  {
  }

  /** A square times z^2 is a square. */
  lemma SquareTimesSquare(z: int, a: int, p: int)
    requires p > 0
    ensures IsSquareMod(a, p) ==> IsSquareMod(z * z * a, p)
  {
    if IsSquareMod(a, p) {
      var w :| 0 <= w < p && (w * w) % p == a % p;
      ScaledSquare(w, z, a, p);
      SquareWitness(z * w, z * z * a, p);
    }
  }

  /** If w^2 == a (mod p) then (z*w)^2 == z^2 * a (mod p). */
  lemma ScaledSquare(w: int, z: int, a: int, p: int)
    requires p > 0 && (w * w) % p == a % p
    ensures ((z * w) * (z * w)) % p == (z * z * a) % p
  {
    MulCongruent(w * w, a, z * z, p);
    assert (z * w) * (z * w) == (w * w) * (z * z);
    assert a * (z * z) == z * z * a;
  }

  /** If z^2 * a is a square and z is invertible modulo p, a is a square. */
  lemma SquareDividedOut(z: int, a: int, p: int)
    requires IsPrime(p) && z % p != 0
    ensures IsSquareMod(z * z * a, p) ==> IsSquareMod(a, p)
  {
    if IsSquareMod(z * z * a, p) {
      var w :| 0 <= w < p && (w * w) % p == (z * z * a) % p;
      var s := InverseModPrime(z, p);
      DivideOutSquare(z, s, w, a, p);
      SquareWitness(s * w, a, p);
    }
  }

  /** If w^2 == z^2 * a and z * s == 1 (mod p), then (s*w)^2 == a (mod p). */
  lemma DivideOutSquare(z: int, s: int, w: int, a: int, p: int)
    requires p > 1 && (z * s) % p == 1 && (w * w) % p == (z * z * a) % p
    ensures ((s * w) * (s * w)) % p == a % p
  {
    var u := z * s;
    MulMod(u, u, p);
    ModSmall(1, p);
    assert (u * u) % p == 1;
    MulCongruent(w * w, z * z * a, s * s, p);
    assert (s * w) * (s * w) == (w * w) * (s * s);
    assert (z * z * a) * (s * s) == (u * u) * a;
    MulCongruent(u * u, 1, a, p);
  }
}

=== FILE: rng.dfy ===
/** Randomized prime generation shared by both cryptosystems.

    Randomness is an explicit value: a RandState is an infinite stream of raw
    draws together with the number already consumed, and every GMP sampling
    call consumes exactly one draw. GMP's probabilistic primitives
    (mpz_nextprime, mpz_probab_prime_p) are the two fields of an Oracle passed
    in by the caller; nothing is assumed about them except in the lemmas that
    name NextPrimeSound or PrimalitySound as a premise. The source's unbounded
    rejection loops and its retrying recursion are bounded by `tries` and
    `walk`; running out is the Exhausted outcome. A failed Rust assertion or
    arithmetic underflow is the Panicked outcome. */
module Rng {
  import opened Arith
  import opened Bits
  import opened Primes

  /** GMP's random state: the stream of raw draws and how many are used up. */
  datatype RandState = RandState(stream: nat -> nat, drawn: nat)

  /** The result of a randomized computation: a value and the state after it,
      the retry bound running out, or a panic of the Rust program. */
  datatype Outcome<T> = Done(value: T, rest: RandState) | Exhausted | Panicked(reason: string)

  /** The GMP primitives whose internals are not modelled. */
  datatype Oracle = Oracle(nextPrime: nat -> nat, probablyPrime: nat -> bool)

  /** mpz_nextprime returns a prime strictly greater than its argument. */
  ghost predicate NextPrimeSound(o: Oracle)
  {
    forall u: nat :: o.nextPrime(u) > u && IsPrime(o.nextPrime(u))
  }

  /** mpz_probab_prime_p accepts only primes (an idealisation of 40 rounds
      of Miller-Rabin, which may err with tiny probability). */
  ghost predicate PrimalitySound(o: Oracle)
  {
    forall u: nat :: o.probablyPrime(u) ==> IsPrime(u)
  }

  /** The state after one draw. */
  function Advance(rs: RandState): RandState
  {
    RandState(rs.stream, rs.drawn + 1)
  }

  // ---------------------------------------------------------------------
  // Rejection sampling

  /** Draw raw values one at a time, map each through `cand`, and return the
      first candidate `accept` admits, giving up after `tries` draws. This is
      the shape of every `loop { x = draw; if ok(x) { break } }` in the source. */
  function Sample(rs: RandState, cand: nat -> nat, accept: nat -> bool, tries: nat): (r: Outcome<nat>)
    decreases tries
    ensures r.Done? || r.Exhausted?
    ensures r.Done? ==> accept(r.value)
    ensures r.Done? ==> r.rest.stream == rs.stream && rs.drawn < r.rest.drawn <= rs.drawn + tries
    ensures r.Done? ==> r.value == cand(rs.stream(r.rest.drawn - 1))
  {
    if tries == 0 then Exhausted
    else
      var c := cand(rs.stream(rs.drawn));
      if accept(c) then Done(c, Advance(rs))
      else Sample(Advance(rs), cand, accept, tries - 1)
  }

  /** Sample returns the FIRST accepted draw: every earlier draw was rejected. */
  lemma {:induction false} SampleFirstAccepted(rs: RandState, cand: nat -> nat, accept: nat -> bool, tries: nat)
    ensures var r := Sample(rs, cand, accept, tries);
      r.Done? ==> forall j :: rs.drawn <= j < r.rest.drawn - 1 ==> !accept(cand(rs.stream(j)))
    decreases tries
  {
    if tries > 0 && !accept(cand(rs.stream(rs.drawn))) {
      var next := Advance(rs);
      assert next.stream == rs.stream && next.drawn == rs.drawn + 1;
      SampleFirstAccepted(next, cand, accept, tries - 1);
    }
  }

  /** Sample gives up exactly when none of the `tries` draws in its window
      is accepted. */
  lemma {:induction false} SampleExhaustedIff(rs: RandState, cand: nat -> nat, accept: nat -> bool, tries: nat)
    ensures Sample(rs, cand, accept, tries).Exhausted? <==>
      forall j :: rs.drawn <= j < rs.drawn + tries ==> !accept(cand(rs.stream(j)))
    decreases tries
  {
    if tries > 0 && !accept(cand(rs.stream(rs.drawn))) {
      var next := Advance(rs);
      assert next.stream == rs.stream && next.drawn == rs.drawn + 1;
      SampleExhaustedIff(next, cand, accept, tries - 1);
    }
  }


  /** The draw loop of both encryptions (gm.rs:59-62, paillier.rs:53-56):
      mpz_urandomm below n until the value is coprime to n. */
  function UrandomCoprime(rs: RandState, n: nat, tries: nat): (r: Outcome<nat>)
    requires n > 0
    ensures r.Done? || r.Exhausted?
    ensures r.Done? ==> r.value < n && Gcd(r.value, n) == 1
    ensures r.Done? ==> r.rest.stream == rs.stream && rs.drawn < r.rest.drawn
    ensures r.Done? ==> r.value == rs.stream(r.rest.drawn - 1) % n
  {
    Sample(rs, (raw: nat) => raw % n, (y: nat) => Gcd(y, n) == 1, tries)
  }

  // ---------------------------------------------------------------------
  // generate_urandom and generate_prime

  /** The value generate_urandom builds from one raw draw: the draw reduced
      to len-1 bits (mpz_urandomb) with bit len-1 then set. */
  function UrandomValue(raw: nat, len: nat): (r: nat)
    requires len >= 1
    ensures BitLength(r) == len && Pow2(len - 1) <= r < Pow2(len)
    ensures r % Pow2(len - 1) == raw % Pow2(len - 1)
  {
    UrandomValueBits(raw, len);
    SetBit(raw % Pow2(len - 1), len - 1)
  }

  lemma UrandomValueBits(raw: nat, len: nat)
    requires len >= 1
    ensures var r := SetBit(raw % Pow2(len - 1), len - 1);
      BitLength(r) == len && Pow2(len - 1) <= r < Pow2(len) && r % Pow2(len - 1) == raw % Pow2(len - 1)
  {
    var h := Pow2(len - 1);
    var low := raw % h;
    DivModUnique(low, 0, low, h);
    assert !TestBit(low, len - 1);
    var r := SetBit(low, len - 1);
    assert r == low + h;
    assert Pow2(len) == 2 * h;
    BitLengthIff(r, len);
    ModMod(raw, h);
  }

  /** generate_urandom: a uniformly drawn integer of exactly len bits. A zero
      length underflows `len - 1` in the source. The assertion at rng.rs:8
      is modelled and never fires. */
  function GenerateUrandom(rs: RandState, len: nat): (r: Outcome<nat>)
    ensures r.Done? <==> len >= 1
    ensures len == 0 ==> r.Panicked?
    ensures r.Done? ==> BitLength(r.value) == len && Pow2(len - 1) <= r.value < Pow2(len)
    ensures r.Done? ==> r.value % Pow2(len - 1) == rs.stream(rs.drawn) % Pow2(len - 1)
    ensures r.Done? ==> r.rest == Advance(rs)
  {
    if len == 0 then Panicked("len - 1 underflows")
    else
      var a := UrandomValue(rs.stream(rs.drawn), len);
      if BitLength(a) != len then Panicked("assertion a.bit_length() == len")
      else Done(a, Advance(rs))
  }

  /** generate_prime: mpz_nextprime of a len-bit sample, resampled until the
      prime found still has len bits. */
  function GeneratePrime(rs: RandState, o: Oracle, len: nat, tries: nat): (r: Outcome<nat>)
    ensures len == 0 ==> r.Panicked?
    ensures r.Panicked? ==> len == 0
    ensures r.Done? ==> BitLength(r.value) == len
    ensures r.Done? ==> r.rest.stream == rs.stream && rs.drawn < r.rest.drawn
    ensures r.Done? ==> r.value == o.nextPrime(UrandomValue(rs.stream(r.rest.drawn - 1), len))
  {
    if len == 0 then Panicked("len - 1 underflows")
    else Sample(rs, (raw: nat) => o.nextPrime(UrandomValue(raw, len)), (p: nat) => BitLength(p) == len, tries)
  }

  /** What generate_prime returns is prime when mpz_nextprime is sound; and
      with a sound mpz_nextprime no prime of a single bit is ever produced. */
  lemma GeneratePrimeIsPrime(rs: RandState, o: Oracle, len: nat, tries: nat)
    requires NextPrimeSound(o)
    ensures var r := GeneratePrime(rs, o, len, tries);
      r.Done? ==> IsPrime(r.value) && r.value >= 2 && len >= 2
  {
    var r := GeneratePrime(rs, o, len, tries);
    if r.Done? {
      var u := UrandomValue(rs.stream(r.rest.drawn - 1), len);
      assert r.value == o.nextPrime(u);
    }
  }

  // ---------------------------------------------------------------------
  // generate_strong_prime

  /** The k-th candidate of a walk from `start` by `step`. */
  function Candidate(start: nat, step: nat, k: nat): nat
  {
    start + k * step
  }

  /** The inner loop of generate_strong_prime: the candidates are tested in
      turn until one is probably prime; the result is that prime and its
      index, or None when the walk budget runs out. */
  function Walk(o: Oracle, start: nat, step: nat, fuel: nat): (r: Option<(nat, nat)>)
    decreases fuel
    ensures r.Some? ==> r.value.1 < fuel && r.value.0 == Candidate(start, step, r.value.1)
    ensures r.Some? ==> o.probablyPrime(r.value.0)
  {
    if fuel == 0 then None
    else if o.probablyPrime(start) then Some((start, 0))
    else
      match Walk(o, start + step, step, fuel - 1)
      case None => None
      case Some((p, k)) =>
        CandidateShift(start, step, k);
        Some((p, k + 1))
  }

  lemma CandidateShift(start: nat, step: nat, k: nat)
    ensures Candidate(start + step, step, k) == Candidate(start, step, k + 1)
  {
    assert (k + 1) * step == k * step + step;
  }

  /** Walk stops at the FIRST probable prime, and gives up exactly when none
      of its candidates passes the test. */
  lemma {:induction false} WalkFirst(o: Oracle, start: nat, step: nat, fuel: nat)
    ensures var r := Walk(o, start, step, fuel);
      r.Some? ==> forall j :: 0 <= j < r.value.1 ==> !o.probablyPrime(Candidate(start, step, j))
    ensures Walk(o, start, step, fuel).None? <==>
      forall j :: 0 <= j < fuel ==> !o.probablyPrime(Candidate(start, step, j))
    decreases fuel
  {
    if fuel > 0 && !o.probablyPrime(start) {
      WalkFirst(o, start + step, step, fuel - 1);
      assert Candidate(start, step, 0) == start;
      var r := Walk(o, start, step, fuel);
      if r.None? {
        forall j | 0 <= j < fuel
          ensures !o.probablyPrime(Candidate(start, step, j))
        {
          if j > 0 {
            CandidateShift(start, step, j - 1);
          }
        }
      } else {
        forall j | 0 <= j < r.value.1
          ensures !o.probablyPrime(Candidate(start, step, j))
        {
          if j > 0 {
            CandidateShift(start, step, j - 1);
          }
        }
      }
    }
  }

  /** With a positive step the walk's candidates strictly increase. */
  lemma CandidatesIncrease(start: nat, step: nat, j: nat, k: nat)
    requires step >= 1 && j < k
    ensures Candidate(start, step, j) < Candidate(start, step, k)
  {
    assert k * step == j * step + (k - j) * step;
    MulSign(k - j, step);
  }

  /** The first candidate pp*a + 1 has at least len bits (the assertion at
      rng.rs:27), whenever pp is positive. */
  lemma FirstCandidateLength(pp: nat, a: nat, len: nat)
    requires len >= 2 && BitLength(pp) == len / 2 && BitLength(a) == len - len / 2 + 1
    ensures pp >= 1 ==> BitLength(pp * a + 1) >= len
  {
    if pp >= 1 {
      var h := len / 2;
      BitLengthLowerBound(pp, h);
      BitLengthLowerBound(a, len - h + 1);
      Pow2Add(h - 1, len - h);
      MulLe(Pow2(h - 1), Pow2(len - h), pp, a);
      BitLengthAtLeast(pp * a + 1, len);
    }
  }

  /** A strong prime together with the witnesses of its construction, which
      the source computes and discards: the len/2-bit sample `base` whose
      mpz_nextprime is the half-size prime pp, the multiplier a, and the
      index of p in the walk that starts at pp*a + 1. */
  datatype StrongPrime = StrongPrime(p: nat, base: nat, pp: nat, a: nat, steps: nat)

  /** How the walk advances. rng.rs:36 adds the multiplier a; the evident
      intent, keeping pp a divisor of p - 1, is to add pp. */
  datatype StepRule = StepByMultiplier | StepByHalfPrime

  function StepSize(rule: StepRule, pp: nat, a: nat): nat
  {
    match rule
    case StepByMultiplier => a
    case StepByHalfPrime => pp
  }

  /** Everything generate_strong_prime(len) establishes about its result:
      p has len bits and passed mpz_probab_prime_p; pp is mpz_nextprime of a
      len/2-bit sample and has len/2 bits itself; a has len - len/2 + 1 bits;
      and p lies on the walk from pp*a + 1, the first candidate on it that
      passed the test. */
  predicate Certifies(o: Oracle, sp: StrongPrime, len: nat, rule: StepRule)
  {
    && BitLength(sp.p) == len && o.probablyPrime(sp.p)
    && BitLength(sp.base) == len / 2 && sp.pp == o.nextPrime(sp.base)
    && BitLength(sp.pp) == len / 2 && BitLength(sp.a) == len - len / 2 + 1
    && sp.p == Candidate(sp.pp * sp.a + 1, StepSize(rule, sp.pp, sp.a), sp.steps)
    && forall j {:trigger Candidate(sp.pp * sp.a + 1, StepSize(rule, sp.pp, sp.a), j)} :: 0 <= j < sp.steps ==>
         !o.probablyPrime(Candidate(sp.pp * sp.a + 1, StepSize(rule, sp.pp, sp.a), j))
  }

  /** generate_strong_prime with the walk advancing by `rule`: pp from
      generate_prime(len/2), a from generate_urandom(len - len/2 + 1), then
      the walk of StrongPrimeWalk. */
  function StrongPrimeWith(rs: RandState, o: Oracle, len: nat, tries: nat, walk: nat, rule: StepRule): (r: Outcome<StrongPrime>)
    decreases tries, 1
    ensures len < 2 ==> r.Panicked?
    ensures len >= 4 ==> !r.Panicked?
    ensures r.Done? ==> Certifies(o, r.value, len, rule)
    ensures r.Done? ==> r.rest.stream == rs.stream && r.rest.drawn > rs.drawn
  {
    if len / 2 == 0 then Panicked("len / 2 - 1 underflows")
    else
      match GeneratePrime(rs, o, len / 2, tries)
      case Exhausted => Exhausted
      case Panicked(why) => Panicked(why)
      case Done(pp, rs1) =>
        var base := UrandomValue(rs.stream(rs1.drawn - 1), len / 2);
        var ua := GenerateUrandom(rs1, len - len / 2 + 1);
        StrongPrimeWalk(ua.rest, o, len, base, pp, ua.value, tries, walk, rule)
  }

  /** rng.rs:26-37: the walk from pp*a + 1 after the assertion that it has
      at least len bits; a probable prime of the wrong length restarts the
      whole construction with the advanced random state (rng.rs:33). */
  function StrongPrimeWalk(rs: RandState, o: Oracle, len: nat, base: nat, pp: nat, a: nat, tries: nat, walk: nat, rule: StepRule): (r: Outcome<StrongPrime>)
    requires len >= 2 && BitLength(base) == len / 2 && pp == o.nextPrime(base)
    requires BitLength(pp) == len / 2 && BitLength(a) == len - len / 2 + 1
    decreases tries, 0
    ensures len >= 4 ==> !r.Panicked?
    ensures r.Done? ==> Certifies(o, r.value, len, rule)
    ensures r.Done? ==> r.rest.stream == rs.stream && r.rest.drawn >= rs.drawn
  {
    var start := pp * a + 1;
    FirstCandidateLength(pp, a, len);
    WalkFirst(o, start, StepSize(rule, pp, a), walk);
    if BitLength(start) < len then Panicked("assertion p.bit_length() >= len")
    else
      match Walk(o, start, StepSize(rule, pp, a), walk)
      case None => Exhausted
      case Some((p, k)) =>
        if BitLength(p) == len then Done(StrongPrime(p, base, pp, a, k), rs)
        else if tries == 0 then Exhausted
        else StrongPrimeWith(rs, o, len, tries - 1, walk, rule)
  }

  /** generate_strong_prime exactly as written: the walk adds a (rng.rs:36),
      so p - 1 is pp*a + steps*a and pp divides it only by accident. */
  function GenerateStrongPrimeAsWritten(rs: RandState, o: Oracle, len: nat, tries: nat, walk: nat): (r: Outcome<StrongPrime>)
    ensures len < 2 ==> r.Panicked?
    ensures len >= 4 ==> !r.Panicked?
    ensures r.Done? ==> Certifies(o, r.value, len, StepByMultiplier)
    ensures r.Done? ==> r.value.p == r.value.pp * r.value.a + 1 + r.value.steps * r.value.a
    ensures r.Done? ==> BitLength(r.value.p) == len && o.probablyPrime(r.value.p)
    ensures r.Done? ==> r.rest.stream == rs.stream && r.rest.drawn > rs.drawn
  {
    StrongPrimeWith(rs, o, len, tries, walk, StepByMultiplier)
  }

  /** generate_strong_prime with the walk corrected to add pp: the result is
      1 modulo the half-size prime pp. */
  function GenerateStrongPrime(rs: RandState, o: Oracle, len: nat, tries: nat, walk: nat): (r: Outcome<StrongPrime>)
    ensures len < 2 ==> r.Panicked?
    ensures len >= 4 ==> !r.Panicked?
    ensures r.Done? ==> Certifies(o, r.value, len, StepByHalfPrime)
    ensures r.Done? ==> r.value.p == r.value.pp * (r.value.a + r.value.steps) + 1
    ensures r.Done? ==> r.value.pp >= 1 && (r.value.p - 1) % r.value.pp == 0
    ensures r.Done? ==> r.rest.stream == rs.stream && r.rest.drawn > rs.drawn
  {
    var r := StrongPrimeWith(rs, o, len, tries, walk, StepByHalfPrime);
    if r.Done? then
      HalfPrimePositive(o, r.value, len);
      CorrectedWalkInvariant(r.value.pp, r.value.a, r.value.steps, r.value.steps);
      r
    else r
  }

  /** On the corrected walk pp == 0 would leave p stuck at 1, which has too
      few bits. */
  lemma HalfPrimePositive(o: Oracle, sp: StrongPrime, len: nat)
    requires Certifies(o, sp, len, StepByHalfPrime) && len >= 2
    ensures sp.pp >= 1
  {
    assert sp.pp == 0 ==> sp.p == 1;
    assert BitLength(1) == 1;
  }

  /** gm.rs:38-41: a strong prime of len bits, walked by `rule`, drawn
      again while it equals `avoid`. */
  function DistinctStrongPrime(rs: RandState, o: Oracle, len: nat, avoid: nat, tries: nat, walk: nat, rule: StepRule): (r: Outcome<StrongPrime>)
    decreases tries
    ensures len < 2 ==> r.Panicked?
    ensures len >= 4 ==> !r.Panicked?
    ensures r.Done? ==> Certifies(o, r.value, len, rule) && r.value.p != avoid
    ensures r.Done? ==> r.rest.stream == rs.stream && r.rest.drawn > rs.drawn
  {
    match StrongPrimeWith(rs, o, len, tries, walk, rule)
    case Exhausted => Exhausted
    case Panicked(why) => Panicked(why)
    case Done(sq, rest) =>
      if sq.p != avoid then Done(sq, rest)
      else if tries == 0 then Exhausted
      else DistinctStrongPrime(rest, o, len, avoid, tries - 1, walk, rule)
  }

  /** With sound GMP primitives a strong prime and its half-size prime are
      both prime, and no strong prime of fewer than 4 bits is produced. */
  lemma StrongPrimeIsPrime(rs: RandState, o: Oracle, len: nat, tries: nat, walk: nat)
    requires NextPrimeSound(o) && PrimalitySound(o)
    ensures var r := GenerateStrongPrime(rs, o, len, tries, walk);
      r.Done? ==> IsPrime(r.value.p) && IsPrime(r.value.pp) && r.value.pp >= 2 && len >= 4
  {
    var r := GenerateStrongPrime(rs, o, len, tries, walk);
    if r.Done? {
      assert IsPrime(o.nextPrime(r.value.base));
      assert BitLength(r.value.pp) >= 2;
    }
  }

  /** Every candidate of the corrected walk is 1 modulo pp, and candidates
      strictly increase: the loop invariant of rng.rs:28-37 with step pp. */
  lemma CorrectedWalkInvariant(pp: nat, a: nat, j: nat, k: nat)
    requires pp >= 1
    ensures Candidate(pp * a + 1, pp, j) == pp * (a + j) + 1
    ensures (Candidate(pp * a + 1, pp, j) - 1) % pp == 0
    ensures j < k ==> Candidate(pp * a + 1, pp, j) < Candidate(pp * a + 1, pp, k)
  {
    assert Candidate(pp * a + 1, pp, j) - 1 == (a + j) * pp;
    ModOfMultiple(a + j, pp);
    if j < k {
      CandidatesIncrease(pp * a + 1, pp, j, k);
    }
  }

  /** In the walk as written, pp divides the k-th candidate minus one
      exactly when it divides a*k: from the first step on, the divisor is
      kept only by accident. */
  lemma AsWrittenWalkDivisor(pp: nat, a: nat, k: nat)
    requires pp >= 1
    ensures (Candidate(pp * a + 1, a, k) - 1) % pp == (a * k) % pp
  {
    assert Candidate(pp * a + 1, a, k) - 1 == a * k + a * pp;
    ModAddMultiple(a * k, a, pp);
  }

  // ---------------------------------------------------------------------
  // The stepping finding, on a concrete random stream

  /** A stream of zero draws. */
  function Zeros(): RandState
  {
    RandState(_ => 0, 0)
  }

  /** The two sampling steps of generate_strong_prime(8) on zero draws:
      pp = nextprime(8) = 11 and a = 16, so the walk starts at 177. */
  lemma ZeroStreamStrongPrimeStart(o: Oracle, rule: StepRule, tries: nat, walk: nat)
    requires o.nextPrime(8) == 11 && tries >= 1
    ensures GeneratePrime(Zeros(), o, 4, tries) == Done(11, RandState(Zeros().stream, 1))
    ensures GenerateUrandom(RandState(Zeros().stream, 1), 5) == Done(16, RandState(Zeros().stream, 2))
    ensures StrongPrimeWith(Zeros(), o, 8, tries, walk, rule)
         == StrongPrimeWalk(RandState(Zeros().stream, 2), o, 8, 8, 11, 16, tries, walk, rule)
  {
    ZeroStreamHalfPrime(o, tries);
    ZeroStreamMultiplier();
    assert UrandomValue(Zeros().stream(0), 4) == 8;
  }

  /** The zero draw gives the 4-bit value 8, whose next prime is 11. */
  lemma ZeroStreamHalfPrime(o: Oracle, tries: nat)
    requires o.nextPrime(8) == 11 && tries >= 1
    ensures UrandomValue(0, 4) == 8
    ensures GeneratePrime(Zeros(), o, 4, tries) == Done(11, RandState(Zeros().stream, 1))
  {
    assert Zeros().stream(0) == 0;
    assert Pow2(3) == 8;
    assert UrandomValue(0, 4) == 8 by {
      assert TestBit(0, 3) == false;
    }
    assert BitLength(8) == 4;
    assert BitLength(11) == 4;
  }

  /** The second zero draw gives the 5-bit multiplier 16. */
  lemma ZeroStreamMultiplier()
    ensures GenerateUrandom(RandState(Zeros().stream, 1), 5) == Done(16, RandState(Zeros().stream, 2))
  {
    assert Zeros().stream(1) == 0;
    assert Pow2(4) == 16;
    assert UrandomValue(0, 5) == 16 by {
      assert TestBit(0, 4) == false;
    }
    assert BitLength(16) == 5;
  }


  /** As written, generate_strong_prime(8) on zero draws walks 177 -> 193
      and returns 193, yet 11 does not divide 192: the "p - 1 has a large
      prime factor" promise fails. The oracle answers are the true ones:
      11 and 193 are prime and 177 = 3 * 59 is not. */
  lemma AsWrittenStrongPrimeLosesDivisor(o: Oracle)
    requires o.nextPrime(8) == 11 && !o.probablyPrime(177) && o.probablyPrime(193)
    ensures GenerateStrongPrimeAsWritten(Zeros(), o, 8, 1, 2)
         == Done(StrongPrime(193, 8, 11, 16, 1), RandState(Zeros().stream, 2))
    ensures (193 - 1) % 11 != 0
    ensures IsPrime(11) && IsPrime(193) && !IsPrime(177)
  {
    ZeroStreamStrongPrimeStart(o, StepByMultiplier, 1, 2);
    AsWrittenWalkFrom177(o);
    WitnessPrimes();
  }

  /** The as-written walk from 177 = 11*16 + 1 steps by 16 and stops at 193. */
  lemma AsWrittenWalkFrom177(o: Oracle)
    requires o.nextPrime(8) == 11 && !o.probablyPrime(177) && o.probablyPrime(193)
    ensures StrongPrimeWalk(RandState(Zeros().stream, 2), o, 8, 8, 11, 16, 1, 2, StepByMultiplier)
         == Done(StrongPrime(193, 8, 11, 16, 1), RandState(Zeros().stream, 2))
  {
    assert Pow2(3) == 8 && BitLength(8) == 4 && BitLength(11) == 4 && BitLength(16) == 5;
    assert BitLength(177) == 8;
    assert Walk(o, 177, 16, 2) == Some((193, 1)) by {
      assert Walk(o, 193, 16, 1) == Some((193, 0));
    }
    assert BitLength(193) == 8;
  }

  /** 11, 193 and 199 are prime; 177 = 3 * 59 and 188 = 2 * 94 are not. */
  lemma WitnessPrimes()
    ensures IsPrime(11) && IsPrime(193) && IsPrime(199) && !IsPrime(177) && !IsPrime(188)
  {
    assert 177 % 3 == 0;
    assert 188 % 2 == 0;
    assert NoDivisorIn(11, 2, 3);
    PrimeByTrialDivision(11, 3);
    assert NoDivisorIn(193, 2, 13);
    PrimeByTrialDivision(193, 13);
    assert NoDivisorIn(199, 2, 14);
    PrimeByTrialDivision(199, 14);
  }


  /** With the corrected step the same draws walk 177 -> 188 -> 199, and
      11 divides 198. */
  lemma CorrectedStrongPrimeKeepsDivisor(o: Oracle)
    requires o.nextPrime(8) == 11 && !o.probablyPrime(177) && !o.probablyPrime(188) && o.probablyPrime(199)
    ensures GenerateStrongPrime(Zeros(), o, 8, 1, 3)
         == Done(StrongPrime(199, 8, 11, 16, 2), RandState(Zeros().stream, 2))
    ensures (199 - 1) % 11 == 0
    ensures IsPrime(199) && !IsPrime(188)
  {
    ZeroStreamStrongPrimeStart(o, StepByHalfPrime, 1, 3);
    CorrectedWalkFrom177(o);
    WitnessPrimes();
  }

  lemma CorrectedWalkFrom177(o: Oracle)
    requires o.nextPrime(8) == 11 && !o.probablyPrime(177) && !o.probablyPrime(188) && o.probablyPrime(199)
    ensures StrongPrimeWalk(RandState(Zeros().stream, 2), o, 8, 8, 11, 16, 1, 3, StepByHalfPrime)
         == Done(StrongPrime(199, 8, 11, 16, 2), RandState(Zeros().stream, 2))
  {
    assert Pow2(3) == 8 && BitLength(8) == 4 && BitLength(11) == 4 && BitLength(16) == 5;
    assert BitLength(177) == 8;
    assert Walk(o, 177, 11, 3) == Some((199, 2)) by {
      assert Walk(o, 199, 11, 1) == Some((199, 0));
      assert Walk(o, 188, 11, 2) == Some((199, 1));
    }
    assert BitLength(199) == 8;
  }
}
